=== FILE: README.md ===
# dokan-dotnet operation proxy, modelled in Dafny

dokan-dotnet is the .NET binding of the Dokan user-mode file-system driver.
The native driver calls into managed code through `DokanOperationProxy`,
which has one entry point per file-system event. Each entry point:

- converts the raw native arguments: it masks flag words, decodes FILETIME
  pairs and decomposes SECURITY_INFORMATION words;
- calls the user's `IDokanOperations` implementation;
- writes the results back into native out-parameters, records and buffers;
- catches every exception, so that only a status code ever reaches the
  kernel.

This project models that proxy. It also models the value types and helpers
the proxy leans on:

- `DokanFileInfo`, the per-handle record, including its GC-handle context
  slot;
- `FileInformation`, the metadata value;
- `DokanFileSystemSecurity`, the raw security-descriptor wrapper;
- `UNICODE_STRING`;
- the log-line composer in `LoggerExtensions`;
- the `<null>`-aware formatter in `NullFormatProvider`.

Each entry point is a pure function of its raw arguments and of the
operations object's answer. That answer is the parameter `op`, and
`ProxyCore.Outcome` describes it: either the status and out-values the
operation returned, or the fact that it threw. Every contract therefore
covers both outcomes:

- If the operation returned, the contract states what the proxy reports for
  that answer.
- If it threw, the contract states the fallback status and what the native
  caller is left with.

The contracts also state what the operation is handed, for example the
masked flags, the decoded times, the security sections and the security
object's kind.

The modules follow the source files:

- `native_types.dfy`, `nt_status.dfy`, `heap.dfy` and `hash_codes.dfy`
  hold the shared vocabulary: C# `null` as `Option`, fixed-width integers,
  NTSTATUS, a table of native allocations, and the hash-code arithmetic.
- `enum_masks.dfy`, `file_time.dfy`, `security_sections.dfy` and
  `proxy_core.dfy` hold the conversions and the fault-containment recipe
  that all entry points share.
- `proxy_files.dfy`, `proxy_find.dfy`, `proxy_volume.dfy` and
  `proxy_security.dfy` hold the entry points themselves.
- The remaining files model the supporting classes, one per source file.

Where the code and the documented contract disagree, the model follows the
code. The contract says an enumeration must not return a null list on
success. The code does not check for this. It dereferences
the list, the resulting exception is caught, and the entry point returns
`InvalidParameter` without calling the fill callback. This is what
`FindProxies.FindFilesProxy` states.

Likewise, the documented contract calls the status vocabulary closed: every
entry point should return one of the named codes. `NtStatus` is a C# enum,
though, and the proxy passes on whatever status the operations object
returns, so an unnamed code reaches the driver unchanged. The model's
`NtStatusCodes.NtStatus` is therefore any 32-bit code, with the named codes
as constants.

## Model

| member | source | states |
|---|---|---|
| ProxyCore.Fallback | DokanNet/DokanOperationProxy.cs:329-333 | The catch-block status is `Unsuccessful` exactly for create and `InvalidParameter` exactly for every other status-returning entry point. |
| ProxyCore.FallbackIsError | DokanNet/DokanOperationProxy.cs:550-553 | A fault is always reported as an NTSTATUS error: never `Success` and never the `BufferOverflow` warning. |
| ProxyCore.Contain | DokanNet/DokanOperationProxy.cs:326-333 | The operation's own status passes through unchanged when it returns; its entry point's fallback status is reported when it throws. |
| ProxyCore.Swallow | DokanNet/DokanOperationProxy.cs:349-352 | A void entry point reports a swallowed fault exactly when the operation throws. |
| ProxyCore.NewProxy | DokanNet/DokanOperationProxy.cs:249-254 | The volume serial number is the operations object's hash code read as unsigned (equal modulo 2^32). |
| EnumMasks.MaskValues | DokanNet/DokanOperationProxy.cs:195-237 | The four masks, built flag by flag, are 0x2FFF7 (attributes), 0xDC004000 (options), 0xF31F01FF (access) and 0x17 (share). |
| EnumMasks.Narrow | DokanNet/DokanOperationProxy.cs:305-308 | Masking keeps no bit outside the mask and every bit inside it. |
| EnumMasks.NarrowIdempotent | DokanNet/DokanOperationProxy.cs:305-308 | Masking twice equals masking once, and a word already inside the mask is unchanged. |
| FileProxies.CreateRequestFor | DokanNet/DokanOperationProxy.cs:296-308 | `CreateFile` receives the name and handle record unchanged. Access and share are the raw words masked. Attributes and options are both masked from the one mapped word. The mode is the mapped disposition. |
| FileProxies.ZwCreateFileProxy | DokanNet/DokanOperationProxy.cs:284-334 | Create reports the operation's status for that request, or `Unsuccessful` if it throws. |
| FileProxies.CreateRequestInsideMasks | DokanNet/DokanOperationProxy.cs:305-308 | Every flag word handed to `CreateFile` lies inside its mask. |
| FileProxies.CreateMasksOverlapInEncrypted | DokanNet/DokanOperationProxy.cs:195-217 | The only bit that reaches `CreateFile` in both the attributes and the options is Encrypted (0x4000), and it does so exactly when the mapped word has it. |
| FileProxies.CleanupProxy | DokanNet/DokanOperationProxy.cs:338-353 | Cleanup swallows a fault exactly when the operation throws, and never reports one. |
| FileProxies.CloseFileProxy | DokanNet/DokanOperationProxy.cs:357-372 | Close swallows a fault exactly when the operation throws, and never reports one. |
| FileProxies.ReadFileProxy | DokanNet/DokanOperationProxy.cs:376-401 | Read reports the operation's status and byte count unaltered. On a throw it reports `InvalidParameter` and leaves the count unspecified. |
| FileProxies.WriteFileProxy | DokanNet/DokanOperationProxy.cs:405-439 | Write reports the operation's status and byte count unaltered. On a throw it reports `InvalidParameter` and leaves the count unspecified. |
| FileProxies.FlushFileBuffersProxy | DokanNet/DokanOperationProxy.cs:443-460 | The operation's status, or `InvalidParameter` on a throw. |
| FileProxies.GetFileInformationProxy | DokanNet/DokanOperationProxy.cs:464-511 | On `Success` every field of the native record is written from the returned value: attributes, the three times through `ToFileTime`, the size, one link, the proxy's serial number, a zero high index, and the name's hash (0 for a null name) as the low index. On any other status, and on a throw, the record is untouched. |
| FileProxies.SetEndOfFileProxy | DokanNet/DokanOperationProxy.cs:687-705 | The operation's status for the given offset, or `InvalidParameter` on a throw. |
| FileProxies.SetAllocationSizeProxy | DokanNet/DokanOperationProxy.cs:707-725 | The operation's status for the given length, or `InvalidParameter` on a throw. |
| FileProxies.SetFileAttributesProxy | DokanNet/DokanOperationProxy.cs:729-747 | The operation receives the raw attribute word without masking. The result is its status, or `InvalidParameter` on a throw. |
| FileProxies.SetFileTimeProxy | DokanNet/DokanOperationProxy.cs:751-792 | If any of the three FILETIMEs is out of `DateTime` range, the result is `InvalidParameter` and the operation is not reached. Otherwise the operation receives the three decoded times, and the result is its status, or `InvalidParameter` on a throw. |
| FileProxies.InformationTimesRoundTrip | DokanNet/DokanOperationProxy.cs:760-774 | The times a successful metadata query writes, fed back into set-file-time, reach the operation unchanged. Absent times, pre-epoch times and the epoch itself arrive as "no change". |
| FileProxies.DeleteFileProxy | DokanNet/DokanOperationProxy.cs:796-813 | The operation's status, or `InvalidParameter` on a throw. |
| FileProxies.DeleteDirectoryProxy | DokanNet/DokanOperationProxy.cs:817-834 | The operation's status, or `InvalidParameter` on a throw. |
| FileProxies.MoveFileProxy | DokanNet/DokanOperationProxy.cs:838-861 | The operation's status for the two names and the replace flag, or `InvalidParameter` on a throw. |
| FileProxies.LockFileProxy | DokanNet/DokanOperationProxy.cs:865-884 | The operation's status for the range, or `InvalidParameter` on a throw. |
| FileProxies.UnlockFileProxy | DokanNet/DokanOperationProxy.cs:888-911 | The operation's status for the range, or `InvalidParameter` on a throw. |
| FindProxies.AddTo | DokanNet/DokanOperationProxy.cs:605-623 | A find record carries the entry's name, attributes and size. Each of its three FILETIMEs is exactly `ToFileTime` of the entry's time (so the all-zero pair for an absent or pre-epoch time), and decodes back to the entry's time when that time is after the epoch, and to "no time" otherwise. |
| FindProxies.AddToStream | DokanNet/DokanOperationProxy.cs:672-683 | A stream record carries the entry's name and length. |
| FindProxies.FillFiles | DokanNet/DokanOperationProxy.cs:541-544 | Exactly one fill call per list entry, in list order. |
| FindProxies.FillStreams | DokanNet/DokanOperationProxy.cs:648-651 | Exactly one stream fill call per list entry, in list order. |
| FindProxies.NoFillStatus | DokanNet/DokanOperationProxy.cs:550-553 | An enumeration that makes no fill calls reports the operation's failure status, or `InvalidParameter` for a fault. |
| FindProxies.EnumerateFiles | DokanNet/DokanOperationProxy.cs:523-548 | A non-null list returned with `Success` (and a usable callback when the list is non-empty) gives `Success` and one fill per entry. Every other case gives no fills and the `NoFillStatus`. |
| FindProxies.FindFilesProxy | DokanNet/DokanOperationProxy.cs:515-555 | Listing covers all five cases: throw, failure status, null list on `Success`, zero callback pointer with a non-empty list, and a fill per entry in order. |
| FindProxies.FindFilesWithPatternProxy | DokanNet/DokanOperationProxy.cs:558-603 | The same five cases, for the pattern-filtered listing. |
| FindProxies.FindStreamsProxy | DokanNet/DokanOperationProxy.cs:626-662 | The same five cases, with stream records. |
| FindProxies.FillsOnlyOnSuccess | DokanNet/DokanOperationProxy.cs:526-545 | A non-success status comes with no fill calls. Fill calls happen only when the operation returned `Success` with that many entries. |
| FindProxies.PatternAgreesWithFindFiles | DokanNet/DokanOperationProxy.cs:558-603 | Given the same answer, the pattern listing and the plain listing report the same status and make the same fill calls. |
| FindProxies.StreamsMatchFiles | DokanNet/DokanOperationProxy.cs:605-683 | For the same list, stream fills and file fills agree entry by entry on name and size. |
| FindProxies.FillFilesAppend | DokanNet/DokanOperationProxy.cs:541-544 | The fills for a concatenated list are the fills for each part, in order. |
| VolumeProxies.GetDiskFreeSpaceProxy | DokanNet/DokanOperationProxy.cs:915-943 | The operation's status and three sizes. On a throw, `InvalidParameter` and unspecified sizes. |
| VolumeProxies.GetVolumeInformationProxy | DokanNet/DokanOperationProxy.cs:946-985 | The serial number and the component length 256 are reported whatever happens. The label and file-system name are appended (null appends nothing) only on `Success`. The feature flags come from the operation; on a throw they are unspecified and the result is `InvalidParameter`. |
| VolumeProxies.SerialNumberIsStable | DokanNet/DokanOperationProxy.cs:253 | The reported serial number is the operations object's hash code from construction, read as unsigned. |
| VolumeProxies.BuffersOnlyGrow | DokanNet/DokanOperationProxy.cs:968-969 | What the caller put in either name buffer stays as a prefix. |
| VolumeProxies.MountedProxy | DokanNet/DokanOperationProxy.cs:988-1005 | The operation's status, or `InvalidParameter` on a throw. |
| VolumeProxies.UnmountedProxy | DokanNet/DokanOperationProxy.cs:1008-1025 | The operation's status, or `InvalidParameter` on a throw. |
| SecuritySections.Sections | DokanNet/DokanOperationProxy.cs:1036-1056 | Each section is in the result iff one of its native bits is requested. Owner and group have one bit each. Access and audit have the plain, protected and unprotected bits. No other bit is in the result. |
| SecuritySections.SectionsDistribute | DokanNet/DokanOperationProxy.cs:1036-1056 | Requesting two bit sets together requests the union of their sections. |
| SecuritySections.VariantsShareSections | DokanNet/DokanOperationProxy.cs:1094-1114 | The protected and unprotected variants select the same section as the plain bit. Bits outside the eight known ones select nothing. |
| SecurityProxies.GetFileSecurityProxy | DokanNet/DokanOperationProxy.cs:1028-1084 | On `Success` the length needed is the descriptor's size. A descriptor longer than the stated capacity gives `BufferOverflow` (iff) with nothing copied. Otherwise the bytes are copied to the start of the buffer and the rest is kept; a null buffer makes the copy fault, giving `InvalidParameter` with the length needed already written. A null object on `Success`, a failure status or a throw leaves the buffer and length-needed word untouched. |
| SecurityProxies.KindFor | DokanNet/DokanOperationProxy.cs:1119 | The set side builds directory security exactly for a directory handle. |
| SecurityProxies.SetFileSecurityProxy | DokanNet/DokanOperationProxy.cs:1087-1137 | A null descriptor pointer, or a descriptor the platform rejects, gives `InvalidParameter` without calling the operation. Otherwise the operation receives an object of the handle's kind carrying exactly the first `length` bytes, plus the decomposed sections. |
| SecurityProxies.SecurityRoundTrip | DokanNet/DokanOperationProxy.cs:1064-1127 | A successful get had a non-null buffer, and the buffer and length it wrote, fed into set, hand the set operation exactly the descriptor the get operation produced. |
| FileTimes.Combine | DokanNet/DokanOperationProxy.cs:762-763 | The combined 64-bit value is negative exactly when the high word is. |
| FileTimes.ToFileTime | DokanNet/DokanOperationProxy.cs:1152-1162 | An absent or pre-1601 time becomes the zero pair. Any other time becomes a pair whose 64-bit value is that time. |
| FileTimes.DecodeFileTime | DokanNet/DokanOperationProxy.cs:760-764 | The all-zero and all-one pairs, and only those, decode as "no time". A pair is out of range exactly when its value is negative or past `DateTime.MaxValue`. Any other pair decodes to its value. |
| FileTimes.FileTimeRoundTrip | DokanNet/DokanOperationProxy.cs:1152-1162 | Encoding a time after the epoch and decoding it gives it back. The epoch itself and earlier times come back as "no time". |
| FileTimes.AbsentRoundTrip | DokanNet/DokanOperationProxy.cs:1154-1157 | An absent time encodes to a pair that decodes as absent. |
| FileTimes.FileTimeReencode | DokanNet/DokanOperationProxy.cs:760-764 | Every pair the decode accepts as a time is exactly the pair `ToFileTime` produces for that time. |
| FileTimes.SurvivingDecode | DokanNet/DokanOperationProxy.cs:608-610 | Any optional time, encoded and decoded, yields itself if after the epoch and "no time" otherwise. |
| FileTimes.CombineInjective | DokanNet/DokanOperationProxy.cs:762-763 | Two FILETIME pairs with the same 64-bit value are the same pair. |
| FileTimes.CombineIsShiftOr | DokanNet/DokanOperationProxy.cs:762-763 | The arithmetic value agrees, on all 64 bits, with the bit-level `((long)high << 32)` OR-ed with `(uint)low`, for the two words' bit patterns. |
| DokanFileInfoModel.GetContext | DokanNet/DokanFileInfo.cs:61-63 | The context is null exactly when the slot is empty. |
| DokanFileInfoModel.SetContext | DokanNet/DokanFileInfo.cs:64-76 | After a set, the context reads back as the stored value, and no other field changes. The handle held before is freed unless the table hands its number straight back for the new value. Null empties the slot; a value gets the handle number the table chose. Every other live handle and its target are kept, and no other handle is created. |
| DokanFileInfoModel.HandleMayBeReused | DokanNet/DokanFileInfo.cs:66-74 | When the table reuses the freed number, the record after the set equals the record before, though it now pins the new object. |
| DokanFileInfoModel.ReleaseContext | DokanNet/DokanFileInfo.cs:66-70 | The held handle is freed and the slot zeroed; every other handle is kept with its target. |
| DokanFileInfoModel.ClearTwice | DokanNet/DokanFileInfo.cs:64-76 | Storing null twice is the same as storing it once. |
| DokanFileInfoModel.AtMostOneHandle | DokanNet/DokanFileInfo.cs:64-76 | After two sets, the context reads as the last value. The live handles are the other records' handles plus at most this record's one. |
| DokanFileInfoModel.OtherContextUnaffected | DokanNet/DokanFileInfo.cs:64-76 | Setting one record's context leaves what any other record reads from its own slot unchanged. |
| DokanFileInfoModel.ProcessId | DokanNet/DokanFileInfo.cs:83 | The process id read through the unchecked `int` cast has the same 32 bits, and is negative exactly when the field is at least 2^31. |
| DokanFileInfoModel.SetIsDirectory | DokanNet/DokanFileInfo.cs:90-94 | Stores the flag and changes no other field. |
| DokanFileInfoModel.SetDeleteOnClose | DokanNet/DokanFileInfo.cs:100-104 | Stores the flag and changes no other field. |
| DokanFileInfoModel.SettersKeepReadOnlyViews | DokanNet/DokanFileInfo.cs:83-125 | No setter changes the read-only views `ProcessId`, `PagingIo`, `SynchronousIo`, `NoCache` or `WriteToEndOfFile`. |
| DokanFileInfoModel.Equals | DokanNet/DokanFileInfo.cs:169-184 | Typed equality holds exactly when the other record is non-null and has all ten fields equal. |
| DokanFileInfoModel.EqualsObject | DokanNet/DokanFileInfo.cs:190-196 | Object equality holds exactly when the object is a record equal to this one. It is false for null and for other types. |
| DokanFileInfoModel.OpEquals | DokanNet/DokanFileInfo.cs:223-226 | `==` holds exactly when both sides are null or both are equal records. |
| DokanFileInfoModel.OpNotEquals | DokanNet/DokanFileInfo.cs:233-236 | `!=` is the negation of `==`. |
| DokanFileInfoModel.GetHashCode | DokanNet/DokanFileInfo.cs:200-216 | The hash is the `* 397 ^` chain, in 32-bit wrap-around arithmetic, starting from the context slot's hash and taking the other nine fields in declaration order. |
| DokanFileInfoModel.WriteToEndOfFileFlipsLowBit | DokanNet/DokanFileInfo.cs:213 | Flipping `WriteToEndOfFile` flips exactly the lowest bit of the hash. |
| DokanFileInfoModel.EqualsImpliesSameHash | DokanNet/DokanFileInfo.cs:200-216 | Equal records have equal hash codes. |
| FileInformationModel.OptionalEquals | DokanNet/FileInformation.cs:59-63 | Two possibly-null names or times are equal exactly when both are null or both are present with the same content. |
| FileInformationModel.Equals | DokanNet/FileInformation.cs:56-65 | Equal exactly when all six fields are equal. |
| FileInformationModel.EqualsIsEquivalence | DokanNet/FileInformation.cs:56-65 | Equality is reflexive, symmetric and transitive. |
| FileInformationModel.EqualsOnOptionalFields | DokanNet/FileInformation.cs:59-63 | An absent time never equals a present one, and a null name never equals an empty one. |
| FileInformationModel.EqualsObject | DokanNet/FileInformation.cs:71-75 | Object equality is false for null and for other types; for a boxed value it is typed equality. |
| FileInformationModel.OpEquals | DokanNet/FileInformation.cs:98-101 | `==` holds exactly when the two values are equal. |
| FileInformationModel.OpNotEquals | DokanNet/FileInformation.cs:108-111 | `!=` holds exactly when the two values differ. |
| FileInformationModel.NameHash | DokanNet/FileInformation.cs:83 | A null name contributes 0 to the hash. |
| FileInformationModel.GetHashCode | DokanNet/FileInformation.cs:79-91 | The hash is the `* 397 ^` chain, in 32-bit wrap-around arithmetic, starting from the name's hash and taking attributes, the three times and the length in that order. |
| FileInformationModel.EqualsImpliesSameHash | DokanNet/FileInformation.cs:79-91 | Equal values have equal hash codes. |
| FileInformationModel.NullNameHashesAsZero | DokanNet/FileInformation.cs:83-90 | The hash of a nameless value does not depend on the string hash: it is the chain started from 0. |
| FileSystemSecurityModel.SetBinaryForm | DokanNet/DokanFileSystemSecurity.cs:69 | The bytes are accepted exactly when the platform accepts them. An accepted object keeps its kind and carries exactly those bytes. |
| FileSystemSecurityModel.Create | DokanNet/DokanFileSystemSecurity.cs:22-28 | A non-negative length is kept. A negative one is replaced by the platform's descriptor length. The pointer is kept. |
| FileSystemSecurityModel.DefaultLengthIsQueried | DokanNet/DokanFileSystemSecurity.cs:22-28 | The default length asks the platform. Passing the platform's own answer explicitly gives the same value. |
| FileSystemSecurityModel.GetAsFileSystemSecurity | DokanNet/DokanFileSystemSecurity.cs:58-72 | A non-positive length or a zero pointer gives null. Otherwise exactly `length` bytes from the pointer are injected into the target, which keeps its kind. This happens iff the platform accepts the bytes; otherwise the conversion throws. |
| FileSystemSecurityModel.GetAsDirectorySecurity | DokanNet/DokanFileSystemSecurity.cs:35-39 | The conversion yields directory security, and is null exactly in the null cases. |
| FileSystemSecurityModel.GetAsFileSecurity | DokanNet/DokanFileSystemSecurity.cs:46-50 | The conversion yields file security, and is null exactly in the null cases. |
| FileSystemSecurityModel.DirectoryAndFileAgree | DokanNet/DokanFileSystemSecurity.cs:35-50 | The two conversions are null together and rejected together, and they carry the same bytes. |
| UnicodeStringModel.New | DokanNet/Native/UNICODE_STRING.cs:20-25 | `Length` is twice the string's UTF-16 length (`s.Length`, two units per character outside the BMP) and `MaximumLength` two more, both truncated to 16 bits; both are exact and even when they fit. The buffer is a block at the address the allocator chose, which was free and non-null, holding the characters and a NUL; no other block changes. |
| UnicodeStringModel.SurrogatePairLengths | DokanNet/Native/UNICODE_STRING.cs:22-23 | A single character outside the BMP gives `Length` 4 and `MaximumLength` 6. |
| UnicodeStringModel.Dispose | DokanNet/Native/UNICODE_STRING.cs:27-31 | For a null or live buffer, the block is freed and the pointer zeroed. The lengths and every other block are kept. |
| UnicodeStringModel.StaleCopyNotOwned | DokanNet/Native/UNICODE_STRING.cs:27-31 | A struct copy taken before `Dispose` still holds the freed pointer and no longer meets `Dispose`'s precondition, since disposing it would free the block twice. |
| UnicodeStringModel.DisposeTwice | DokanNet/Native/UNICODE_STRING.cs:27-31 | A second `Dispose` changes nothing. |
| UnicodeStringModel.ToString | DokanNet/Native/UNICODE_STRING.cs:33-37 | A null buffer reads as the empty string. Otherwise the result is the prefix of the block before its first NUL. |
| UnicodeStringModel.TakeUntilNul | DokanNet/Native/UNICODE_STRING.cs:35 | The result is a NUL-free prefix of the block, followed by a NUL or the block's end. |
| UnicodeStringModel.DisposedReadsEmpty | DokanNet/Native/UNICODE_STRING.cs:27-37 | After `Dispose` the value reads as the empty string. |
| UnicodeStringModel.RoundTrip | DokanNet/Native/UNICODE_STRING.cs:39-47 | A string converted to `UNICODE_STRING` and back gives the string up to its first NUL, so a NUL-free string comes back whole. |
| LoggerExtensions.CategoryPart | DokanNet/Logging/LoggerExtensions.cs:56-59 | A null or empty category contributes nothing; any other contributes itself and a space. |
| LoggerExtensions.FormatMessageForLoggingAt | DokanNet/Logging/LoggerExtensions.cs:39-63 | The line ends with the message. With a date it starts with `now - `. Without a date it starts with the logger name and has the length of name, category part and message. With no name and no category it is just the message. |
| LoggerExtensions.FormatMessageForLogging | DokanNet/Logging/LoggerExtensions.cs:22-28 | The three-argument overload is the name, then the category part, then the message. |
| LoggerExtensions.OverloadsAgree | DokanNet/Logging/LoggerExtensions.cs:22-28 | The three-argument overload equals the four-argument one without a date, whatever the clock says. |
| LoggerExtensions.DatedLineLayout | DokanNet/Logging/LoggerExtensions.cs:45-63 | A dated line is the clock reading, ` - `, and then exactly the undated line for the same message, category and name. |
| NullFormatProvider.Format | DokanNet/NullFormatProvider.cs:74-80 | A null argument is rendered as `<null>`. A formattable argument is rendered by its own formatted string, for the given format and provider, unless that is null. Otherwise its plain `ToString` is used. |
| NullFormatProvider.FormatIgnoredByPlain | DokanNet/NullFormatProvider.cs:76-79 | The format string and the provider affect only formattable arguments: a null or plain argument renders the same under any. |
| NullFormatProvider.GetFormat | DokanNet/NullFormatProvider.cs:53-58 | The singleton provider is returned exactly for the custom-formatter type; null otherwise. |
| NullFormatProvider.RenderPiece | DokanNet/NullFormatProvider.cs:36-41 | Literal text is kept. A null hole renders as `<null>` aligned. A plain argument's hole is its `ToString` (nothing for null) aligned. A formattable argument's hole is its `ToString(format, provider)` with the singleton as provider, or its plain `ToString` (nothing for null) when that is null, aligned. |
| NullFormatProvider.Align | DokanNet/NullFormatProvider.cs:36-41 | A hole's alignment sets a minimum width in UTF-16 code units: a positive one pads with spaces on the left, a negative one on the right, by exactly the missing width, and a wider value is kept whole. |
| NullFormatProvider.SurrogatePairPadding | DokanNet/NullFormatProvider.cs:36-41 | A character outside the BMP counts two units of width: alignment 3 adds one space. |
| NullFormatProvider.NarrowAlignmentAddsNothing | DokanNet/NullFormatProvider.cs:36-41 | An alignment no wider than the value's UTF-16 length, including none, leaves it unchanged. |
| NullFormatProvider.DokanFormat | DokanNet/NullFormatProvider.cs:36-41 | A null interpolated string gives the empty string. Any other is its pieces rendered with the singleton formatter. |
| NullFormatProvider.RenderAllAppend | DokanNet/NullFormatProvider.cs:36-41 | Rendering is piecewise: the rendering of a concatenation is the concatenation of the renderings. |
| NullFormatProvider.NullHoleShows | DokanNet/NullFormatProvider.cs:20 | A null argument between two literals shows up as `<null>`, aligned, between them. |

## Left out

- Logging: every `_logger` call is a no-op in the model, because logging never changes a status. `ILogger` and `DebugViewLogger` are left out, as are the `Debug`/`Info`/... helpers and `FormatForLogging` in `LoggerExtensions`, which only format text for the logger.
- `DateTime.Now` formatted for the current culture is the parameter `now` of `LoggerExtensions.FormatMessageForLoggingAt`, because clocks and cultures are outside the model.
- `Debug.Assert` calls have no effect in a release build and are not modelled.
- Native struct layout (`StructLayout`, `Pack`, `MarshalAs`) is left out, including the 260-character `ByValTStr` truncation of find-record names. Records carry whole strings.
- `DOKAN_OPTIONS`, `DOKAN_ACCESS_STATE`, `DOKAN_IO_SECURITY_CONTEXT`, `SECURITY_ATTRIBUTES` and the mount façade are context types with no logic and are not part of this model.
- The local/UTC adjustment of `DateTime.ToFileTime` and `DateTime.FromFileTime` is left out: a `DateTime` is its raw file-time count, bounded by `DateTime.MinValue` and `DateTime.MaxValue` on that scale.
- The runtime's `string.GetHashCode` and `IDokanOperations.GetHashCode` are left out because they are runtime-defined. They are the parameters `stringHash` and `operationsHash`.
- The native `DokanMapKernelToUserCreateFileFlags` is a foreign call; it is the parameter `mapFlags`. The `securityContext` pointer of create is never read and is not modelled.
- Changes the operation makes to the `DokanFileInfo` it receives by reference are not modelled. Neither is the data it writes directly into the read buffer, because both happen inside the operation.
- `StringBuilder` capacities in `GetVolumeInformationProxy` (`rawVolumeNameSize`, `rawFileSystemNameSize`) are not enforced by the proxy and are not modelled.
- Allocation failure (`OutOfMemoryException`) is left out.
- UnicodeStringModel.Dispose: disposing a second copy of the struct after the first was disposed frees the block twice, which is undefined behaviour in the native heap. A precondition excludes it; `UnicodeStringModel.StaleCopyNotOwned` shows which copies it rules out.
- DokanFileInfoModel.GetHashCode: the `IntPtr` field `dokanOptions` is hashed as a 64-bit value, low word xor high word, as 64-bit .NET Core does. The .NET Framework hash of an `IntPtr` is not modelled.
- SecurityProxies.SetFileSecurityProxy: does not model a length of 2^31 or more, whether or not the pointer is null. There `new byte[...]` sits outside the `try` and would throw past the entry point, so a precondition excludes such lengths.
- A non-null native buffer shorter than the length the driver states, passed to the security entry points, is excluded by the preconditions that the buffer has the stated length; `Marshal.Copy` would read or write past it, an access violation the proxy does not catch. A null buffer is modelled.
- The parsing of composite format strings is left out: an interpolated string is its sequence of pieces. This includes the `FormatException` for an alignment of 1,000,000 or more.
- The handle table's and the unmanaged heap's choice of address is the parameter `slot` of `DokanFileInfoModel.SetContext` and `address` of `UnicodeStringModel.New`; any free non-null address is allowed.
- The fill callback's return value is ignored by the proxy, and a fault inside the native callback is outside the model.
- Native addresses are unbounded naturals; the 64-bit width of `IntPtr` is left out.
- Concurrency: the proxy keeps no mutable state besides the serial number, and the model has no threads.
- `DokanFileInfo.GetRequestor`, `DokanFileInfo.TryResetTimeout` and `DokanFileInfo.ToString` are left out because they are foreign calls into the driver or only log text.
- Strings are sequences of Unicode scalar values. Lengths and widths count UTF-16 code units (`NativeTypes.Utf16Length`), as `s.Length` does, but a lone surrogate, which a C# string may hold, cannot be represented and is not modelled.
- `UNICODE_STRING` built from a null string (a `NullReferenceException` in the constructor) is not modelled: `UnicodeStringModel.New` takes a non-null string.
- `DokanException`, `IntrospectionExtensions` and `GlobalSuppressions` carry no behaviour of the proxy and are left out.
- The numeric values of `FileAttributes`, `FileOptions`, `FileShare`, `FileAccess`, `SECURITY_INFORMATION`, `AccessControlSections` and the NTSTATUS codes are not part of this model's sources. They are the published .NET and Windows values.
- `FileAttributeMask` is the one of the .NET 4.5-and-later build, including `IntegrityStream` and `NoScrubData`. The .NET 4.0 build's narrower mask is not modelled.
- FileProxies.CreateRequestFor: states the masked words as `EnumMasks.Narrow` of the raw words. That masking keeps every in-mask bit follows from `Narrow`'s own contract and is not restated per field.
- The security object handed to and returned by the operations is represented by its binary form only. Its access-control contents are opaque bytes, and the platform's acceptance of them is the parameter `wellFormed`.

=== FILE: dokan_file_info.dfy ===
/** `DokanFileInfo`: the per-handle record the driver passes with every call.
    Its `Context` slot holds the number of a GC handle (0 when empty) that
    pins the implementation's own object; the process-wide handle table is
    an explicit `Heap`. */
module DokanFileInfoModel {

  import opened NativeTypes
  import opened Heap
  import opened HashCodes

  /** The ten fields in declaration order. `dokanContext` and
      `dokanOptions` are set by the driver and never modified here. */
  datatype DokanFileInfo = DokanFileInfo(
    context: nat,
    dokanContext: bv64,
    dokanOptions: bv64,
    processId: uint32,
    isDirectory: bool,
    deleteOnClose: bool,
    pagingIo: bool,
    synchronousIo: bool,
    noCache: bool,
    writeToEndOfFile: bool)

  /** The slot is empty or names a live handle. */
  ghost predicate ContextValid<T>(info: DokanFileInfo, handles: Heap<T>) {
    info.context == 0 || info.context in handles.blocks
  }

  /** `Context` get: null for an empty slot, else the handle's target. */
  function GetContext<T>(info: DokanFileInfo, handles: Heap<T>): (r: Option<T>)
    requires ContextValid(info, handles)
    ensures r.None? <==> info.context == 0
  {
    if info.context != 0 then Some(handles.blocks[info.context]) else None
  }

  /** The handle number `slot` may be chosen by the allocation inside the
      setter: it is free once the held handle has been released. */
  predicate SlotAvailable<T>(info: DokanFileInfo, handles: Heap<T>, slot: nat) {
    slot != 0 && (slot !in handles.blocks || slot == info.context)
  }

  /** `Context` set: frees the handle held, if any, and empties the slot;
      then, for a non-null value, allocates a handle for it (numbered
      `slot`, the allocator's choice) and stores that. */
  function SetContext<T>(info: DokanFileInfo, handles: Heap<T>, value: Option<T>, slot: nat)
    : (r: (DokanFileInfo, Heap<T>))
    requires Valid(handles) && ContextValid(info, handles)
    requires value.Some? ==> SlotAvailable(info, handles, slot)
    ensures Valid(r.1) && ContextValid(r.0, r.1)
    ensures GetContext(r.0, r.1) == value
    ensures r.0 == info.(context := r.0.context)
    ensures r.0.context == if value.Some? then slot else 0
    ensures info.context != 0 && info.context != r.0.context ==> info.context !in r.1.blocks
    ensures forall a :: a in r.1.blocks && a != r.0.context ==> a in handles.blocks && a != info.context
    ensures forall a :: a in handles.blocks && a != info.context && a != r.0.context ==>
      a in r.1.blocks && r.1.blocks[a] == handles.blocks[a]
  {
    var cleared := ReleaseContext(info, handles);
    if value.Some? then
      (cleared.0.(context := slot), Alloc(cleared.1, value.value, slot))
    else
      cleared
  }

  /** The first half of the setter: free the held handle, zero the slot. */
  function ReleaseContext<T>(info: DokanFileInfo, handles: Heap<T>): (r: (DokanFileInfo, Heap<T>))
    requires Valid(handles) && ContextValid(info, handles)
    ensures Valid(r.1) && r.0 == info.(context := 0)
    ensures info.context !in r.1.blocks
    ensures forall a :: a != info.context ==> (a in r.1.blocks <==> a in handles.blocks)
    ensures forall a :: a in r.1.blocks ==> r.1.blocks[a] == handles.blocks[a]
  {
    if info.context != 0 then (info.(context := 0), Free(handles, info.context)) else (info, handles)
  }

  /** Storing null twice is the same as storing it once. */
  lemma {:induction false} ClearTwice<T>(info: DokanFileInfo, handles: Heap<T>, slot: nat)
    requires Valid(handles) && ContextValid(info, handles)
    ensures var (i1, h1) := SetContext(info, handles, None, slot);
            SetContext(i1, h1, None, slot) == (i1, h1)
  {
    var (i1, h1) := SetContext(info, handles, None, slot);
    assert i1.context == 0;
  }

  /** The handle table may hand the number just freed straight back: the
      record then compares equal to what it was, though it pins the new
      object. */
  lemma HandleMayBeReused<T>(info: DokanFileInfo, handles: Heap<T>, value: T)
    requires Valid(handles) && ContextValid(info, handles) && info.context != 0
    ensures var (i1, h1) := SetContext(info, handles, Some(value), info.context);
            && i1 == info
            && h1.blocks[info.context] == value
  {
  }

  /** An instance never pins more than one object: after two sets, the live
      handles are the other instances' handles plus at most the one this
      instance holds. */
  lemma {:induction false} AtMostOneHandle<T>(
    info: DokanFileInfo, handles: Heap<T>, v1: Option<T>, s1: nat, v2: Option<T>, s2: nat)
    requires Valid(handles) && ContextValid(info, handles)
    requires v1.Some? ==> SlotAvailable(info, handles, s1)
    requires v2.Some? ==>
      var (i1, h1) := SetContext(info, handles, v1, s1);
      SlotAvailable(i1, h1, s2)
    ensures var (i1, h1) := SetContext(info, handles, v1, s1);
            var (i2, h2) := SetContext(i1, h1, v2, s2);
            && GetContext(i2, h2) == v2
            && (forall a :: a in h2.blocks ==> a == i2.context || (a in handles.blocks && a != info.context))
  {
    var (i1, h1) := SetContext(info, handles, v1, s1);
    var (i2, h2) := SetContext(i1, h1, v2, s2);
    forall a | a in h2.blocks
      ensures a == i2.context || (a in handles.blocks && a != info.context)
    {
      if a != i2.context {
        assert a in h1.blocks && a != i1.context;
      }
    }
  }

  /** Setting the context of one instance leaves what another instance reads
      from its own live slot unchanged. */
  lemma OtherContextUnaffected<T>(
    info: DokanFileInfo, other: DokanFileInfo, handles: Heap<T>, value: Option<T>, slot: nat)
    requires Valid(handles) && ContextValid(info, handles) && ContextValid(other, handles)
    requires value.Some? ==> SlotAvailable(info, handles, slot)
    requires other.context != info.context || other.context == 0
    ensures ContextValid(other, SetContext(info, handles, value, slot).1)
    ensures GetContext(other, SetContext(info, handles, value, slot).1) == GetContext(other, handles)
  {
  }

  /** `ProcessId`: the unsigned field read through an `int` cast. */
  function ProcessId(info: DokanFileInfo): (r: int32)
    ensures Unsigned32(r) == info.processId as int
    ensures r >= 0 <==> info.processId < 0x8000_0000
    ensures r as int == info.processId as int || r as int == info.processId as int - TwoTo32
  {
    Wrap32(info.processId as int)
  }

  /** `IsDirectory` set: stores the value, touches nothing else. */
  function SetIsDirectory(info: DokanFileInfo, value: bool): (r: DokanFileInfo)
    ensures r.isDirectory == value
    ensures r.(isDirectory := info.isDirectory) == info
  {
    info.(isDirectory := value)
  }

  /** `DeleteOnClose` set: stores the value, touches nothing else. */
  function SetDeleteOnClose(info: DokanFileInfo, value: bool): (r: DokanFileInfo)
    ensures r.deleteOnClose == value
    ensures r.(deleteOnClose := info.deleteOnClose) == info
  {
    info.(deleteOnClose := value)
  }

  /** The read-only views (`ProcessId`, `PagingIo`, `SynchronousIo`,
      `NoCache`, `WriteToEndOfFile`) are not changed by any setter. */
  predicate SameReadOnlyViews(a: DokanFileInfo, b: DokanFileInfo) {
    && ProcessId(a) == ProcessId(b)
    && a.pagingIo == b.pagingIo
    && a.synchronousIo == b.synchronousIo
    && a.noCache == b.noCache
    && a.writeToEndOfFile == b.writeToEndOfFile
  }

  lemma SettersKeepReadOnlyViews<T>(
    info: DokanFileInfo, handles: Heap<T>, value: Option<T>, slot: nat, flag: bool)
    requires Valid(handles) && ContextValid(info, handles)
    requires value.Some? ==> SlotAvailable(info, handles, slot)
    ensures SameReadOnlyViews(info, SetIsDirectory(info, flag))
    ensures SameReadOnlyViews(info, SetDeleteOnClose(info, flag))
    ensures SameReadOnlyViews(info, SetContext(info, handles, value, slot).0)
  {
  }

  /** `Equals(DokanFileInfo)`: false for null, else all ten fields compared;
      the context slot by its raw handle number, not by the pinned object. */
  function Equals(self: DokanFileInfo, other: Option<DokanFileInfo>): (r: bool)
    ensures r <==> other == Some(self)
  {
    if other.None? then false
    else
      var o := other.value;
      && self.context == o.context
      && self.dokanContext == o.dokanContext
      && self.dokanOptions == o.dokanOptions
      && self.processId == o.processId
      && self.isDirectory == o.isDirectory
      && self.deleteOnClose == o.deleteOnClose
      && self.pagingIo == o.pagingIo
      && self.synchronousIo == o.synchronousIo
      && self.noCache == o.noCache
      && self.writeToEndOfFile == o.writeToEndOfFile
  }

  /** A value seen as `object`: a `DokanFileInfo` or some other type. */
  datatype Boxed = BoxedFileInfo(info: DokanFileInfo) | BoxedOther(typeName: string)

  /** `Equals(object)`: false for null and for other types, else the typed
      comparison. Reference identity implies field equality, so the
      reference shortcut needs no case of its own. */
  function EqualsObject(self: DokanFileInfo, obj: Option<Boxed>): (r: bool)
    ensures r <==> obj == Some(BoxedFileInfo(self))
  {
    match obj
    case None => false
    case Some(BoxedFileInfo(o)) => Equals(self, Some(o))
    case Some(BoxedOther(_)) => false
  }

  /** `operator ==` (the static `object.Equals`): two nulls are equal, a null
      and an instance are not, two instances compare with `Equals`. */
  function OpEquals(left: Option<DokanFileInfo>, right: Option<DokanFileInfo>): (r: bool)
    ensures r <==> left == right
  {
    match (left, right)
    case (None, None) => true
    case (None, Some(_)) => false
    case (Some(l), None) => false
    case (Some(l), Some(rr)) => EqualsObject(l, Some(BoxedFileInfo(rr)))
  }

  /** `operator !=`. */
  function OpNotEquals(left: Option<DokanFileInfo>, right: Option<DokanFileInfo>): (r: bool)
    ensures r <==> !OpEquals(left, right)
  {
    !OpEquals(left, right)
  }

  /** The field hashes after the first, in the order they are mixed in. */
  function FieldHashes(info: DokanFileInfo): (r: seq<bv32>)
    ensures |r| == 9
  {
    [Hash64(info.dokanContext), Hash64(info.dokanOptions), info.processId as bv32,
     HashBool(info.isDirectory), HashBool(info.deleteOnClose), HashBool(info.pagingIo),
     HashBool(info.synchronousIo), HashBool(info.noCache), HashBool(info.writeToEndOfFile)]
  }

  /** `GetHashCode`: the ten fields combined with `* 397 ^`, in 32-bit
      wrap-around arithmetic, starting from the context slot's hash (the
      slot's `ulong` taken modulo 2^64): the chain over the fields in
      declaration order. */
  function GetHashCode(info: DokanFileInfo): (r: bv32)
    ensures r == Fold(Mix, HashInt64(info.context), FieldHashes(info))
  {
    var h0 := HashInt64(info.context);
    var x1 := Hash64(info.dokanContext);
    var x2 := Hash64(info.dokanOptions);
    var x3 := info.processId as bv32;
    var x4 := HashBool(info.isDirectory);
    var x5 := HashBool(info.deleteOnClose);
    var x6 := HashBool(info.pagingIo);
    var x7 := HashBool(info.synchronousIo);
    var x8 := HashBool(info.noCache);
    var x9 := HashBool(info.writeToEndOfFile);
    assert FieldHashes(info) == [x1, x2, x3, x4, x5, x6, x7, x8, x9];
    FoldNine(Mix, h0, x1, x2, x3, x4, x5, x6, x7, x8, x9);
    Mix(Mix(Mix(Mix(Mix(Mix(Mix(Mix(Mix(h0, x1), x2), x3), x4), x5), x6), x7), x8), x9)
  }

  /** The last field enters unmixed: flipping `WriteToEndOfFile` flips
      exactly the lowest bit of the hash, so the two records never collide. */
  lemma {:induction false} WriteToEndOfFileFlipsLowBit(info: DokanFileInfo)
    ensures GetHashCode(info.(writeToEndOfFile := !info.writeToEndOfFile)) == GetHashCode(info) ^ 1
  {
    var flipped := info.(writeToEndOfFile := !info.writeToEndOfFile);
    var xs := FieldHashes(info)[..8];
    assert FieldHashes(info) == xs + [HashBool(info.writeToEndOfFile)];
    assert FieldHashes(flipped) == xs + [HashBool(flipped.writeToEndOfFile)];
    LastFieldXors(HashInt64(info.context), xs, HashBool(info.writeToEndOfFile), HashBool(flipped.writeToEndOfFile));
  }

  /** Equal instances have equal hash codes. */
  lemma EqualsImpliesSameHash(a: DokanFileInfo, b: DokanFileInfo)
    requires Equals(a, Some(b))
    ensures GetHashCode(a) == GetHashCode(b)
  {
  }
}

=== FILE: enum_masks.dfy ===
/** The fixed bitmasks the create entry point uses to strip unrecognised bits
    from the native flag words before they reach the operations object. The
    mask members are listed flag by flag, as the proxy declares them; the
    numeric flag values are those of the .NET `FileAttributes`,
    `FileOptions` and `FileShare` enumerations and of Dokan's `FileAccess`
    (the Windows ACCESS_MASK bits). */
module EnumMasks {

  // FileAttributes
  const ReadOnly: bv32 := 0x1
  const Hidden: bv32 := 0x2
  const System: bv32 := 0x4
  const Directory: bv32 := 0x10
  const Archive: bv32 := 0x20
  const Device: bv32 := 0x40
  const Normal: bv32 := 0x80
  const Temporary: bv32 := 0x100
  const SparseFile: bv32 := 0x200
  const ReparsePoint: bv32 := 0x400
  const Compressed: bv32 := 0x800
  const Offline: bv32 := 0x1000
  const NotContentIndexed: bv32 := 0x2000
  const AttributeEncrypted: bv32 := 0x4000
  const IntegrityStream: bv32 := 0x8000
  const NoScrubData: bv32 := 0x2_0000

  /** The attribute mask of the .NET 4.5-and-later build, which adds
      `IntegrityStream` and `NoScrubData`. */
  const FileAttributeMask: bv32 :=
    ReadOnly | Hidden | System | Directory | Archive | Device | Normal
    | Temporary | SparseFile | ReparsePoint | Compressed | Offline
    | NotContentIndexed | AttributeEncrypted | IntegrityStream | NoScrubData

  // FileOptions
  const OptionsNone: bv32 := 0x0
  const WriteThrough: bv32 := 0x8000_0000
  const Asynchronous: bv32 := 0x4000_0000
  const RandomAccess: bv32 := 0x1000_0000
  const SequentialScan: bv32 := 0x0800_0000
  const DeleteOnClose: bv32 := 0x0400_0000
  const OptionEncrypted: bv32 := 0x4000

  const FileOptionsMask: bv32 :=
    Asynchronous | DeleteOnClose | OptionEncrypted | OptionsNone
    | RandomAccess | SequentialScan | WriteThrough

  // FileAccess
  const ReadData: bv32 := 0x1
  const WriteData: bv32 := 0x2
  const AppendData: bv32 := 0x4
  const ReadExtendedAttributes: bv32 := 0x8
  const WriteExtendedAttributes: bv32 := 0x10
  const Execute: bv32 := 0x20
  const DeleteChild: bv32 := 0x40
  const ReadAttributes: bv32 := 0x80
  const WriteAttributes: bv32 := 0x100
  const Delete: bv32 := 0x1_0000
  const ReadPermissions: bv32 := 0x2_0000
  const ChangePermissions: bv32 := 0x4_0000
  const SetOwnership: bv32 := 0x8_0000
  const Synchronize: bv32 := 0x10_0000
  const AccessSystemSecurity: bv32 := 0x100_0000
  const MaximumAllowed: bv32 := 0x200_0000
  const GenericAll: bv32 := 0x1000_0000
  const GenericExecute: bv32 := 0x2000_0000
  const GenericWrite: bv32 := 0x4000_0000
  const GenericRead: bv32 := 0x8000_0000

  const FileAccessMask: bv32 :=
    ReadData | WriteData | AppendData | ReadExtendedAttributes
    | WriteExtendedAttributes | Execute | DeleteChild | ReadAttributes
    | WriteAttributes | Delete | ReadPermissions | ChangePermissions
    | SetOwnership | Synchronize | AccessSystemSecurity | MaximumAllowed
    | GenericAll | GenericExecute | GenericWrite | GenericRead

  // FileShare
  const ShareRead: bv32 := 0x1
  const ShareWrite: bv32 := 0x2
  const ShareReadWrite: bv32 := 0x3
  const ShareDelete: bv32 := 0x4
  const Inheritable: bv32 := 0x10

  const FileShareMask: bv32 := ShareReadWrite | ShareDelete | Inheritable

  /** The four masks, as the numbers they add up to. */
  lemma MaskValues()
    ensures FileAttributeMask == 0x2_FFF7
    ensures FileOptionsMask == 0xDC00_4000
    ensures FileAccessMask == 0xF31F_01FF
    ensures FileShareMask == 0x17
  {
  }

  /** Narrowing a raw flag word with a mask (`raw & Mask`): no bit outside
      the mask survives, and every bit inside the mask is kept as it was. */
  function Narrow(raw: bv32, mask: bv32): (r: bv32)
    ensures r & !mask == 0
    ensures r | (raw & !mask) == raw
  {
    raw & mask
  }

  /** Narrowing is idempotent, and a word already inside the mask is left
      alone. */
  lemma NarrowIdempotent(raw: bv32, mask: bv32)
    ensures Narrow(Narrow(raw, mask), mask) == Narrow(raw, mask)
    ensures raw & !mask == 0 ==> Narrow(raw, mask) == raw
  {
  }
}

=== FILE: file_information.dfy ===
/** `FileInformation`: the metadata value an implementation hands back for
    one file, directory or stream, with field-wise equality and a hash that
    agrees with it. The runtime's `string.GetHashCode` is the parameter
    `stringHash`. */
module FileInformationModel {

  import opened NativeTypes
  import opened HashCodes

  datatype FileInformation = FileInformation(
    fileName: Option<string>,
    attributes: bv32,
    creationTime: Option<DateTime>,
    lastAccessTime: Option<DateTime>,
    lastWriteTime: Option<DateTime>,
    length: int64)

  /** Equality of two possibly-null values, as both `Nullable<DateTime>.Equals`
      and the static `string.Equals` compute it: two nulls are equal, null
      and a value are not, two values compare by content. */
  function OptionalEquals<T(==)>(a: Option<T>, b: Option<T>): (r: bool)
    ensures r <==> a == b
  {
    match (a, b)
    case (None, None) => true
    case (Some(x), Some(y)) => x == y
    case _ => false
  }

  /** `Equals(FileInformation)`: all six fields equal. */
  function Equals(self: FileInformation, other: FileInformation): (r: bool)
    ensures r <==> self == other
  {
    && OptionalEquals(self.fileName, other.fileName)
    && self.attributes == other.attributes
    && OptionalEquals(self.creationTime, other.creationTime)
    && OptionalEquals(self.lastAccessTime, other.lastAccessTime)
    && OptionalEquals(self.lastWriteTime, other.lastWriteTime)
    && self.length == other.length
  }

  /** Field-wise equality is an equivalence relation. */
  lemma EqualsIsEquivalence(a: FileInformation, b: FileInformation, c: FileInformation)
    ensures Equals(a, a)
    ensures Equals(a, b) == Equals(b, a)
    ensures Equals(a, b) && Equals(b, c) ==> Equals(a, c)
  {
  }

  /** Optional timestamps match only when both are absent or both present and
      equal; a name that is null on one side only makes the values differ. */
  lemma EqualsOnOptionalFields(a: FileInformation, t: DateTime)
    ensures !Equals(a.(creationTime := None), a.(creationTime := Some(t)))
    ensures !Equals(a.(lastWriteTime := None), a.(lastWriteTime := Some(t)))
    ensures !Equals(a.(fileName := None), a.(fileName := Some("")))
  {
  }

  /** A value seen as `object`: a boxed `FileInformation` or another type. */
  datatype Boxed = BoxedFileInformation(info: FileInformation) | BoxedOther(typeName: string)

  /** `Equals(object)`: false for null and for other types, else the typed
      comparison. */
  function EqualsObject(self: FileInformation, obj: Option<Boxed>): (r: bool)
    ensures obj.None? ==> !r
    ensures obj.Some? && obj.value.BoxedOther? ==> !r
    ensures obj.Some? && obj.value.BoxedFileInformation? ==> r == Equals(self, obj.value.info)
    ensures r <==> obj == Some(BoxedFileInformation(self))
  {
    match obj
    case None => false
    case Some(BoxedFileInformation(o)) => Equals(self, o)
    case Some(BoxedOther(_)) => false
  }

  /** `operator ==`. */
  function OpEquals(left: FileInformation, right: FileInformation): (r: bool)
    ensures r <==> left == right
  {
    Equals(left, right)
  }

  /** `operator !=`. */
  function OpNotEquals(left: FileInformation, right: FileInformation): (r: bool)
    ensures r <==> left != right
  {
    !Equals(left, right)
  }

  /** `DateTime.Ticks` of 1601-01-01, the file-time epoch. */
  const EpochTicks: int := 504911232000000000

  /** `Nullable<DateTime>.GetHashCode`: 0 when absent, else the hash of the
      instant's tick count. */
  function HashNullableTime(t: Option<DateTime>): bv32 {
    if t.None? then 0 else HashInt64(t.value as int + EpochTicks)
  }

  /** The hash the name contributes: the string's hash, or 0 for null. */
  function NameHash(fi: FileInformation, stringHash: string -> bv32): (h: bv32)
    ensures fi.fileName.None? ==> h == 0
  {
    if fi.fileName.Some? then stringHash(fi.fileName.value) else 0
  }

  /** The hashes of the five fields after the name, in the order they are
      mixed in. */
  function FieldHashes(fi: FileInformation): (r: seq<bv32>)
    ensures |r| == 5
  {
    [fi.attributes, HashNullableTime(fi.creationTime), HashNullableTime(fi.lastAccessTime),
     HashNullableTime(fi.lastWriteTime), HashInt64(fi.length as int)]
  }

  /** `GetHashCode`: the name's hash, then the other five fields combined
      with `* 397 ^` in 32-bit wrap-around arithmetic: the chain over the
      fields in declaration order. */
  function GetHashCode(fi: FileInformation, stringHash: string -> bv32): (r: bv32)
    ensures r == Fold(Mix, NameHash(fi, stringHash), FieldHashes(fi))
  {
    var h0 := NameHash(fi, stringHash);
    var x1 := fi.attributes;
    var x2 := HashNullableTime(fi.creationTime);
    var x3 := HashNullableTime(fi.lastAccessTime);
    var x4 := HashNullableTime(fi.lastWriteTime);
    var x5 := HashInt64(fi.length as int);
    assert FieldHashes(fi) == [x1, x2, x3, x4, x5];
    FoldFive(Mix, h0, x1, x2, x3, x4, x5);
    Mix(Mix(Mix(Mix(Mix(h0, x1), x2), x3), x4), x5)
  }

  /** Equal values have equal hash codes. */
  lemma EqualsImpliesSameHash(a: FileInformation, b: FileInformation, stringHash: string -> bv32)
    requires Equals(a, b)
    ensures GetHashCode(a, stringHash) == GetHashCode(b, stringHash)
  {
  }

  /** A null name contributes 0: the hash of a nameless value does not depend
      on the string hash at all. */
  lemma NullNameHashesAsZero(fi: FileInformation, h1: string -> bv32, h2: string -> bv32)
    requires fi.fileName.None?
    ensures GetHashCode(fi, h1) == GetHashCode(fi, h2) == Fold(Mix, 0, FieldHashes(fi))
  {
    assert NameHash(fi, h1) == 0 == NameHash(fi, h2);
  }
}

=== FILE: file_system_security.dfy ===
/** `DokanFileSystemSecurity`: a raw security-descriptor pointer and its byte
    length, convertible on demand into a directory- or file-flavoured
    security object. Descriptor contents are opaque bytes; whether the
    platform accepts them as a self-relative descriptor is the parameter
    `wellFormed`. Native memory is a map from a block's address to its
    bytes. */
module FileSystemSecurityModel {

  import opened NativeTypes

  datatype SecurityKind = DirectorySecurity | FileSecurity

  /** A `FileSystemSecurity` object; `descriptor` is `None` for a freshly
      constructed object that has not been given a binary form. */
  datatype FileSystemSecurity = FileSystemSecurity(kind: SecurityKind, descriptor: Option<seq<bv8>>)

  function NewSecurity(kind: SecurityKind): (s: FileSystemSecurity)
    ensures s.kind == kind && s.descriptor.None?
  {
    FileSystemSecurity(kind, None)
  }

  /** `SetSecurityDescriptorBinaryForm`: `None` when the platform rejects the
      bytes (it throws); otherwise the same object carrying the bytes. */
  function SetBinaryForm(sec: FileSystemSecurity, bytes: seq<bv8>, wellFormed: seq<bv8> -> bool)
    : (r: Option<FileSystemSecurity>)
    ensures r.Some? <==> wellFormed(bytes)
    ensures r.Some? ==> r.value.kind == sec.kind && r.value.descriptor == Some(bytes)
  {
    if wellFormed(bytes) then Some(sec.(descriptor := Some(bytes))) else None
  }

  datatype DokanFileSystemSecurity = DokanFileSystemSecurity(rawSecurityDescriptor: nat, length: int32)

  /** The constructor: an explicit non-negative length is kept; a negative
      one (the default is -1) is replaced by the platform's
      `GetSecurityDescriptorLength` of the pointer. */
  function Create(rawSecurityDescriptor: nat, length: int32, descriptorLength: nat -> int32)
    : (r: DokanFileSystemSecurity)
    ensures r.rawSecurityDescriptor == rawSecurityDescriptor
    ensures length >= 0 ==> r.length == length
    ensures length < 0 ==> r.length == descriptorLength(rawSecurityDescriptor)
  {
    DokanFileSystemSecurity(
      rawSecurityDescriptor,
      if length < 0 then descriptorLength(rawSecurityDescriptor) else length)
  }

  /** The constructor called without a length asks the platform for it. */
  lemma DefaultLengthIsQueried(p: nat, descriptorLength: nat -> int32)
    ensures Create(p, -1, descriptorLength).length == descriptorLength(p)
    ensures descriptorLength(p) >= 0 ==>
      Create(p, descriptorLength(p), descriptorLength) == Create(p, -1, descriptorLength)
  {
  }

  /** The outcome of a conversion: `null`, the injected object, or the
      platform's exception, which is not caught here. */
  datatype Conversion = Null | Injected(security: FileSystemSecurity) | Rejected

  /** The native memory holds at least `length` bytes at the pointer. */
  predicate Readable(sd: DokanFileSystemSecurity, memory: map<nat, seq<bv8>>) {
    sd.rawSecurityDescriptor in memory && sd.length as int <= |memory[sd.rawSecurityDescriptor]|
  }

  /** `GetAsFileSystemSecurity`: null when the stored length is not positive
      or the pointer is zero; otherwise copies exactly `length` bytes from
      the pointer and injects them into the given target, which it returns. */
  function GetAsFileSystemSecurity(
    sd: DokanFileSystemSecurity, target: FileSystemSecurity,
    memory: map<nat, seq<bv8>>, wellFormed: seq<bv8> -> bool): (r: Conversion)
    requires sd.length > 0 && sd.rawSecurityDescriptor != 0 ==> Readable(sd, memory)
    ensures sd.length <= 0 || sd.rawSecurityDescriptor == 0 ==> r == Null
    ensures r.Injected? ==>
      && r.security.kind == target.kind
      && r.security.descriptor.Some?
      && |r.security.descriptor.value| == sd.length as int
      && r.security.descriptor.value == memory[sd.rawSecurityDescriptor][..sd.length]
    ensures sd.length > 0 && sd.rawSecurityDescriptor != 0 ==>
      (r.Injected? <==> wellFormed(memory[sd.rawSecurityDescriptor][..sd.length]))
    ensures r.Rejected? ==> sd.length > 0 && sd.rawSecurityDescriptor != 0
  {
    if sd.length <= 0 || sd.rawSecurityDescriptor == 0 then
      Null
    else
      var buffer := memory[sd.rawSecurityDescriptor][..sd.length];
      match SetBinaryForm(target, buffer, wellFormed)
      case Some(sec) => Injected(sec)
      case None => Rejected
  }

  /** `GetAsDirectorySecurity`: the conversion into a new directory object. */
  function GetAsDirectorySecurity(
    sd: DokanFileSystemSecurity, memory: map<nat, seq<bv8>>, wellFormed: seq<bv8> -> bool)
    : (r: Conversion)
    requires sd.length > 0 && sd.rawSecurityDescriptor != 0 ==> Readable(sd, memory)
    ensures r.Injected? ==> r.security.kind == DirectorySecurity
    ensures r.Null? <==> sd.length <= 0 || sd.rawSecurityDescriptor == 0
  {
    GetAsFileSystemSecurity(sd, NewSecurity(DirectorySecurity), memory, wellFormed)
  }

  /** `GetAsFileSecurity`: the conversion into a new file object. */
  function GetAsFileSecurity(
    sd: DokanFileSystemSecurity, memory: map<nat, seq<bv8>>, wellFormed: seq<bv8> -> bool)
    : (r: Conversion)
    requires sd.length > 0 && sd.rawSecurityDescriptor != 0 ==> Readable(sd, memory)
    ensures r.Injected? ==> r.security.kind == FileSecurity
    ensures r.Null? <==> sd.length <= 0 || sd.rawSecurityDescriptor == 0
  {
    GetAsFileSystemSecurity(sd, NewSecurity(FileSecurity), memory, wellFormed)
  }

  /** The two public conversions differ only in the kind of object: both are
      null together, both rejected together, and carry the same bytes. */
  lemma DirectoryAndFileAgree(
    sd: DokanFileSystemSecurity, memory: map<nat, seq<bv8>>, wellFormed: seq<bv8> -> bool)
    requires sd.length > 0 && sd.rawSecurityDescriptor != 0 ==> Readable(sd, memory)
    ensures GetAsDirectorySecurity(sd, memory, wellFormed).Null?
            == GetAsFileSecurity(sd, memory, wellFormed).Null?
    ensures GetAsDirectorySecurity(sd, memory, wellFormed).Rejected?
            == GetAsFileSecurity(sd, memory, wellFormed).Rejected?
    ensures GetAsDirectorySecurity(sd, memory, wellFormed).Injected? ==>
      GetAsDirectorySecurity(sd, memory, wellFormed).security.descriptor
      == GetAsFileSecurity(sd, memory, wellFormed).security.descriptor
  {
  }
}

=== FILE: file_time.dfy ===
/** The native FILETIME pair and the proxy's two conversions: `ToFileTime`,
    used when metadata is marshalled out, and the decode in the set-file-time
    entry point. Local-time adjustment is not modelled: a `DateTime` is its
    raw file-time count. */
module FileTimes {

  import opened NativeTypes

  /** `System.Runtime.InteropServices.ComTypes.FILETIME`: two signed 32-bit
      words. */
  datatype FileTime = FileTime(dwHighDateTime: int32, dwLowDateTime: int32)

  /** The 64-bit value `((long)high << 32) | (uint)low`. Shifting the
      sign-extended high word left by 32 leaves it in the upper half with
      zeros below, so the OR with the zero-extended low word is a sum. */
  function Combine(ft: FileTime): (raw: int)
    ensures -0x8000_0000_0000_0000 <= raw < 0x8000_0000_0000_0000
    ensures raw >= 0 <==> ft.dwHighDateTime >= 0
  {
    ft.dwHighDateTime as int * TwoTo32 + Unsigned32(ft.dwLowDateTime)
  }

  /** `ToFileTime`: an absent time, or one before 1601-01-01, becomes the
      all-zero pair; any other time is split into `raw >> 32` and
      `raw & 0xffffffff`, each cast to `int`. */
  function ToFileTime(dateTime: Option<DateTime>): (ft: FileTime)
    ensures (dateTime.None? || dateTime.value < 0) ==> ft == FileTime(0, 0)
    ensures dateTime.Some? && dateTime.value >= 0 ==> Combine(ft) == dateTime.value as int
    ensures ft.dwHighDateTime >= 0
  {
    var raw: int := if dateTime.Some? && dateTime.value >= 0 then dateTime.value as int else 0;
    FileTime((raw / TwoTo32) as int32, Wrap32(raw % TwoTo32))
  }

  /** What `SetFileTimeProxy` makes of one FILETIME argument: no time, a
      time, or an `ArgumentOutOfRangeException` from `DateTime.FromFileTime`. */
  datatype Decoded = Decoded(time: Option<DateTime>) | OutOfRange

  /** The all-zero and all-one pairs mean "leave this time unchanged". */
  predicate IsNoTime(ft: FileTime) {
    (ft.dwLowDateTime == 0 && ft.dwHighDateTime == 0)
    || (ft.dwLowDateTime == -1 && ft.dwHighDateTime == -1)
  }

  /** Decodes one FILETIME argument. `DateTime.FromFileTime` rejects a
      negative count and one past `DateTime.MaxValue`. */
  function DecodeFileTime(ft: FileTime): (r: Decoded)
    ensures IsNoTime(ft) ==> r == Decoded(None)
    ensures r == Decoded(None) ==> IsNoTime(ft)
    ensures r.Decoded? && r.time.Some? ==> r.time.value as int == Combine(ft) && r.time.value >= 0
    ensures r.OutOfRange? <==> !IsNoTime(ft) && (Combine(ft) < 0 || Combine(ft) > MaxFileTime)
  {
    if (ft.dwLowDateTime != 0 || ft.dwHighDateTime != 0)
       && (ft.dwLowDateTime != -1 || ft.dwHighDateTime != -1)
    then
      var raw := Combine(ft);
      if 0 <= raw <= MaxFileTime then Decoded(Some(raw as DateTime)) else OutOfRange
    else
      Decoded(None)
  }

  /** Encoding a time at or after the epoch and decoding it again gives the
      time back, except the epoch instant itself, whose encoding is the
      all-zero pair and so reads as "no time". */
  lemma {:induction false} FileTimeRoundTrip(t: DateTime)
    ensures t > 0 ==> DecodeFileTime(ToFileTime(Some(t))) == Decoded(Some(t))
    ensures t <= 0 ==> DecodeFileTime(ToFileTime(Some(t))) == Decoded(None)
  {
    var ft := ToFileTime(Some(t));
    if t > 0 {
      assert Combine(ft) == t as int;
      assert ft.dwHighDateTime != -1;
      assert !IsNoTime(ft);
    }
  }

  /** An absent time is encoded as the all-zero pair and decodes as absent. */
  lemma AbsentRoundTrip()
    ensures DecodeFileTime(ToFileTime(None)) == Decoded(None)
  {
  }

  /** Decoding then encoding: every pair the decode accepts as a time is
      exactly the pair `ToFileTime` produces for that time. */
  lemma {:induction false} FileTimeReencode(ft: FileTime)
    requires DecodeFileTime(ft).Decoded? && DecodeFileTime(ft).time.Some?
    ensures ToFileTime(DecodeFileTime(ft).time) == ft
  {
    var t := DecodeFileTime(ft).time.value;
    var back := ToFileTime(Some(t));
    assert Combine(back) == Combine(ft);
    CombineInjective(back, ft);
  }

  /** A time as it survives the trip out through `ToFileTime` and back in
      through the decode: times after the epoch unchanged, everything else
      absent. */
  function Surviving(t: Option<DateTime>): Option<DateTime> {
    if t.Some? && t.value > 0 then t else None
  }

  /** One time through `ToFileTime` and the decode. */
  lemma {:induction false} SurvivingDecode(t: Option<DateTime>)
    ensures DecodeFileTime(ToFileTime(t)) == Decoded(Surviving(t))
  {
    if t.Some? {
      FileTimeRoundTrip(t.value);
    } else {
      AbsentRoundTrip();
    }
  }

  /** Two pairs with the same 64-bit value are the same pair. */
  lemma {:induction false} CombineInjective(a: FileTime, b: FileTime)
    requires Combine(a) == Combine(b)
    ensures a == b
  {
    var ua, ub := Unsigned32(a.dwLowDateTime), Unsigned32(b.dwLowDateTime);
    assert a.dwHighDateTime as int * TwoTo32 + ua == b.dwHighDateTime as int * TwoTo32 + ub;
    assert a.dwHighDateTime == b.dwHighDateTime;
    assert ua == ub;
    WrapUnsignedInverse(ua, a.dwLowDateTime);
    WrapUnsignedInverse(ub, b.dwLowDateTime);
  }

  /** Placing a word in the upper half of a 64-bit value and OR-ing in a
      second word below it is the same as the sum `x * 2^32 + y`. */
  lemma ShiftOrIsSum(x: bv32, y: bv32)
    ensures (((x as bv64) << 32) | (y as bv64)) as int == x as int * 0x1_0000_0000 + y as int
  {
    var w := ((x as bv64) << 32) | (y as bv64);
    assert w == (x as bv64) * 0x1_0000_0000 + (y as bv64);
  }

  /** `Combine` agrees with the bit-level expression
      `((long)high << 32) | (uint)low` on the 64 bits: `high` and `low` are
      the two words' bit patterns. The sign extension of `(long)high` is
      shifted out of the 64 bits, so the zero-extended word gives the same
      bits. */
  lemma {:induction false} CombineIsShiftOr(ft: FileTime, high: bv32, low: bv32)
    requires high as int == Unsigned32(ft.dwHighDateTime)
    requires low as int == Unsigned32(ft.dwLowDateTime)
    ensures (((high as bv64) << 32) | (low as bv64)) as int == Combine(ft) % 0x1_0000_0000_0000_0000
  {
    ShiftOrIsSum(high, low);
    CombineModulo64(ft);
  }

  /** Modulo 2^64, the value is the two words read as unsigned. */
  lemma CombineModulo64(ft: FileTime)
    ensures Combine(ft) % 0x1_0000_0000_0000_0000
         == Unsigned32(ft.dwHighDateTime) * TwoTo32 + Unsigned32(ft.dwLowDateTime)
  {
  }
}

=== FILE: hash_codes.dfy ===
/** The hash-code arithmetic shared by `DokanFileInfo` and
    `FileInformation`: the runtime's hashes of 64-bit integers and booleans,
    and the unchecked `hash = (hash * 397) ^ field` chain, in 32-bit
    wrap-around arithmetic (`bv32`). */
module HashCodes {

  /** `long` and `ulong` `GetHashCode`: the low word xor the high word.
      A 64-bit `IntPtr` is hashed the same way on .NET Core. */
  function Hash64(v: bv64): (r: bv32)
    ensures v < 0x1_0000_0000 ==> r == v as bv32
  {
    ((v & 0xFFFF_FFFF) as bv32) ^ ((v >> 32) as bv32)
  }

  /** The hash of a signed 64-bit value: its two's-complement bits hashed. */
  function HashInt64(v: int): bv32 {
    Hash64((v % 0x1_0000_0000_0000_0000) as bv64)
  }

  /** `bool.GetHashCode`: 1 for true, 0 for false. */
  function HashBool(b: bool): (r: bv32)
    ensures r == 1 <==> b
    ensures r == 0 <==> !b
  {
    if b then 1 else 0
  }

  /** One unchecked step of the combination. */
  function Mix(h: bv32, x: bv32): bv32 {
    (h * 397) ^ x
  }

  /** The chain: `h0`, then each element of `xs` combined in by `step`, in
      order. The hash codes use `step` = `Mix`. */
  function Fold<T>(step: (T, T) -> T, h0: T, xs: seq<T>): T
    decreases |xs|
  {
    if xs == [] then h0 else Fold(step, step(h0, xs[0]), xs[1..])
  }

  /** Folding two runs is folding the second onto the result of the first. */
  lemma {:induction false} FoldAppend<T>(step: (T, T) -> T, h0: T, xs: seq<T>, ys: seq<T>)
    ensures Fold(step, h0, xs + ys) == Fold(step, Fold(step, h0, xs), ys)
    decreases |xs|
  {
    if xs == [] {
      assert xs + ys == ys;
    } else {
      assert (xs + ys)[1..] == xs[1..] + ys;
      FoldAppend(step, step(h0, xs[0]), xs[1..], ys);
    }
  }

  /** The last element is combined last. */
  lemma FoldSnoc<T>(step: (T, T) -> T, h0: T, xs: seq<T>, x: T)
    ensures Fold(step, h0, xs + [x]) == step(Fold(step, h0, xs), x)
  {
    FoldAppend(step, h0, xs, [x]);
    assert Fold(step, Fold(step, h0, xs), [x]) == step(Fold(step, h0, xs), x);
  }

  /** One step of the fold, for an element list written out. */
  lemma FoldCons<T>(step: (T, T) -> T, h0: T, x: T, xs: seq<T>)
    ensures Fold(step, h0, [x] + xs) == Fold(step, step(h0, x), xs)
  {
    assert ([x] + xs)[1..] == xs;
  }

  /** The fold over five elements, written out. */
  lemma FoldFive<T>(step: (T, T) -> T, h0: T, a: T, b: T, c: T, d: T, e: T)
    ensures Fold(step, h0, [a, b, c, d, e]) == step(step(step(step(step(h0, a), b), c), d), e)
  {
    var xs := [a, b, c, d, e];
    var m1 := step(h0, a);
    var m2 := step(m1, b);
    var m3 := step(m2, c);
    var m4 := step(m3, d);
    FoldCons(step, h0, a, xs[1..]);
    FoldCons(step, m1, b, xs[2..]);
    FoldCons(step, m2, c, xs[3..]);
    FoldCons(step, m3, d, xs[4..]);
    FoldCons(step, m4, e, []);
  }

  /** The fold over nine elements, written out: four steps, then five. */
  lemma FoldNine<T>(step: (T, T) -> T, h0: T, a: T, b: T, c: T, d: T, e: T, f: T, g: T, h: T, i: T)
    ensures Fold(step, h0, [a, b, c, d, e, f, g, h, i])
         == step(step(step(step(step(step(step(step(step(h0, a), b), c), d), e), f), g), h), i)
  {
    var xs := [a, b, c, d, e, f, g, h, i];
    var m1 := step(h0, a);
    var m2 := step(m1, b);
    var m3 := step(m2, c);
    var m4 := step(m3, d);
    FoldCons(step, h0, a, xs[1..]);
    FoldCons(step, m1, b, xs[2..]);
    FoldCons(step, m2, c, xs[3..]);
    FoldCons(step, m3, d, xs[4..]);
    assert xs[4..] == [e, f, g, h, i];
    FoldFive(step, m4, e, f, g, h, i);
  }

  /** The last field is xor-ed in unmixed: changing only the last field
      hash changes the hash by exactly the xor of the two values. */
  lemma LastFieldXors(h0: bv32, xs: seq<bv32>, x: bv32, y: bv32)
    ensures Fold(Mix, h0, xs + [x]) ^ Fold(Mix, h0, xs + [y]) == x ^ y
  {
    FoldSnoc(Mix, h0, xs, x);
    FoldSnoc(Mix, h0, xs, y);
  }
}

=== FILE: heap.dfy ===
/** A table of live native allocations: the runtime's GC-handle table and the
    unmanaged heap behind `Marshal.StringToHGlobalUni`. An address names one
    live block; address 0 is the null pointer and is never handed out. Which
    address an allocation gets is the allocator's choice, so it is a
    parameter: any non-zero address that is not live, including one freed
    earlier. */
module Heap {

  datatype Heap<T> = Heap(blocks: map<nat, T>)

  /** The null address is never live. */
  ghost predicate Valid<T>(h: Heap<T>) {
    0 !in h.blocks
  }

  function Empty<T>(): (h: Heap<T>)
    ensures Valid(h) && h.blocks == map[]
  {
    Heap(map[])
  }

  /** `a` may be handed out by the next allocation. */
  predicate Unused<T>(h: Heap<T>, a: nat) {
    a != 0 && a !in h.blocks
  }

  /** Allocates a block holding `v` at the allocator's address `a`
      (`GCHandle.Alloc`, `AllocHGlobal`): only that block is added. */
  function Alloc<T>(h: Heap<T>, v: T, a: nat): (r: Heap<T>)
    requires Valid(h) && Unused(h, a)
    ensures a in r.blocks && r.blocks[a] == v
    ensures forall b :: b != a ==> (b in r.blocks <==> b in h.blocks)
    ensures forall b :: b in h.blocks ==> r.blocks[b] == h.blocks[b]
    ensures Valid(r)
  {
    Heap(h.blocks[a := v])
  }

  /** Releases the block at `a` (`GCHandle.Free`, `Marshal.FreeHGlobal`).
      Freeing address 0 changes nothing, as `FreeHGlobal(IntPtr.Zero)` does. */
  function Free<T>(h: Heap<T>, a: nat): (r: Heap<T>)
    requires Valid(h)
    ensures a !in r.blocks
    ensures forall b :: b != a ==> (b in r.blocks <==> b in h.blocks)
    ensures forall b :: b in r.blocks ==> r.blocks[b] == h.blocks[b]
    ensures Valid(r)
    ensures a == 0 ==> r == h
  {
    Heap(h.blocks - {a})
  }

}

=== FILE: logger_extensions.dfy ===
/** `LoggerExtensions.FormatMessageForLogging`: the composer of one log line
    from an optional clock reading, an optional logger name, an optional
    category and the message. The clock reading (`DateTime.Now` formatted
    for the current culture) is the parameter `now`. */
module LoggerExtensions {

  import opened NativeTypes

  /** The category part: `"{category} "`, or nothing for null or empty. */
  function CategoryPart(category: Option<string>): (r: string)
    ensures IsNullOrEmpty(category) ==> r == ""
    ensures !IsNullOrEmpty(category) ==> r == category.value + " "
  {
    if !IsNullOrEmpty(category) then category.value + " " else ""
  }

  /** The four-argument overload: date prefix `"{now} - "` when asked for,
      then the logger name (no separator), then the category part, then the
      message; `null` parts append nothing. */
  function FormatMessageForLoggingAt(
    message: Option<string>, addDateTime: bool, now: string,
    category: Option<string>, loggerName: Option<string>): (r: string)
    ensures !addDateTime ==>
      |r| == |OrEmpty(loggerName)| + (if IsNullOrEmpty(category) then 0 else |category.value| + 1)
             + |OrEmpty(message)|
    ensures |OrEmpty(message)| <= |r| && r[|r| - |OrEmpty(message)|..] == OrEmpty(message)
    ensures !addDateTime ==> r[..|OrEmpty(loggerName)|] == OrEmpty(loggerName)
    ensures addDateTime ==> |now| + 3 <= |r| && r[..|now| + 3] == now + " - "
    ensures !addDateTime && IsNullOrEmpty(loggerName) && IsNullOrEmpty(category) ==> r == OrEmpty(message)
  {
    var date := if addDateTime then now + " - " else "";
    var name := if !IsNullOrEmpty(loggerName) then loggerName.value else "";
    date + name + CategoryPart(category) + OrEmpty(message)
  }

  /** The three-argument overload: no date. */
  function FormatMessageForLogging(
    message: Option<string>, category: Option<string>, loggerName: Option<string>): (r: string)
    ensures r == OrEmpty(loggerName) + CategoryPart(category) + OrEmpty(message)
  {
    FormatMessageForLoggingAt(message, false, "", category, loggerName)
  }

  /** Without the date the clock reading is irrelevant: the three-argument
      overload is the four-argument one with `addDateTime = false`, whatever
      the clock says. */
  lemma OverloadsAgree(message: Option<string>, category: Option<string>,
                       loggerName: Option<string>, now: string)
    ensures FormatMessageForLogging(message, category, loggerName)
         == FormatMessageForLoggingAt(message, false, now, category, loggerName)
  {
  }

  /** With the date, a line is the clock reading, `" - "`, and then exactly
      the line the date-less overload composes from the same parts. */
  lemma DatedLineLayout(message: Option<string>, now: string,
                        category: Option<string>, loggerName: Option<string>)
    ensures FormatMessageForLoggingAt(message, true, now, category, loggerName)
         == now + " - " + FormatMessageForLogging(message, category, loggerName)
  {
  }
}

=== FILE: native_types.dfy ===
/** Value vocabulary shared by the whole model: C# `null` as an Option, the
    fixed-width integers the native boundary uses, and timestamps. */
module NativeTypes {

  /** A C# reference or `Nullable<T>`: `None` stands for `null`. */
  datatype Option<+T> = None | Some(value: T)

  /** C# `int`. */
  newtype int32 = x: int | -0x8000_0000 <= x < 0x8000_0000

  /** C# `long`. */
  newtype int64 = x: int | -0x8000_0000_0000_0000 <= x < 0x8000_0000_0000_0000

  /** C# `uint`. */
  newtype uint32 = x: int | 0 <= x < 0x1_0000_0000

  /** C# `ushort`. */
  newtype uint16 = x: int | 0 <= x < 0x1_0000

  const TwoTo32: int := 0x1_0000_0000

  /** A managed byte array: its length fits a C# `int`. */
  type Bytes = s: seq<bv8> | |s| < 0x8000_0000

  /** The text of a possibly-null string, as `StringBuilder.Append` sees it. */
  function OrEmpty(s: Option<string>): (r: string)
    ensures s.Some? ==> r == s.value
    ensures s.None? ==> r == ""
  {
    if s.Some? then s.value else ""
  }

  /** The UTF-16 code units a character takes: a surrogate pair (2) for one
      outside the Basic Multilingual Plane, else 1. */
  function Utf16Units(c: char): (n: nat)
    ensures n == 1 || n == 2
  {
    if c as int >= 0x1_0000 then 2 else 1
  }

  /** `string.Length`: the number of UTF-16 code units, which exceeds the
      number of characters by one per character outside the BMP. */
  function Utf16Length(s: string): (n: nat)
    ensures |s| <= n <= 2 * |s|
    ensures (forall i :: 0 <= i < |s| ==> s[i] as int < 0x1_0000) ==> n == |s|
    decreases |s|
  {
    if s == [] then 0 else Utf16Units(s[0]) + Utf16Length(s[1..])
  }

  /** The UTF-16 length of a concatenation is the sum of the lengths. */
  lemma {:induction false} Utf16LengthAppend(a: string, b: string)
    ensures Utf16Length(a + b) == Utf16Length(a) + Utf16Length(b)
    decreases |a|
  {
    if a == [] {
      assert a + b == b;
    } else {
      assert (a + b)[1..] == a[1..] + b;
      Utf16LengthAppend(a[1..], b);
    }
  }

  /** `string.IsNullOrEmpty`. */
  predicate IsNullOrEmpty(s: Option<string>) {
    s.None? || s.value == ""
  }

  /** The unchecked cast `(int)v` of a value in `0 .. 2^32`: the same 32 bits
      read as a signed number. */
  function Wrap32(v: int): (r: int32)
    requires 0 <= v < TwoTo32
    ensures r as int == v || r as int == v - TwoTo32
    ensures r >= 0 <==> v < 0x8000_0000
  {
    if v < 0x8000_0000 then v as int32 else (v - TwoTo32) as int32
  }

  /** The unchecked cast `(uint)x`: the bits of an `int` read as unsigned. */
  function Unsigned32(x: int32): (r: int)
    ensures 0 <= r < TwoTo32
    ensures r % TwoTo32 == (x as int) % TwoTo32
  {
    if x < 0 then x as int + TwoTo32 else x as int
  }

  /** The unchecked casts between `uint` and `int` undo each other. */
  lemma WrapUnsignedInverse(v: int, x: int32)
    requires 0 <= v < TwoTo32
    ensures Unsigned32(Wrap32(v)) == v
    ensures Wrap32(Unsigned32(x)) == x
  {
  }

  /** A point in time, counted as a Windows file time: 100-nanosecond
      intervals since 1601-01-01 UTC. The bounds are `DateTime.MinValue` and
      `DateTime.MaxValue` on that scale, so pre-1601 instants are negative. */
  const MinFileTime: int := -504911232000000000
  const MaxFileTime: int := 2650467743999999999
  newtype DateTime = t: int | MinFileTime <= t <= MaxFileTime
}

=== FILE: nt_status.dfy ===
/** The status every entry point returns: an NTSTATUS code, as the native
    caller reads it. The proxy passes on whatever status the operations
    object returns, so a status is any 32-bit code, named or not; the
    constants below are the `DokanResult` names the model refers to. */
module NtStatusCodes {

  newtype NtStatus = c: int | 0 <= c < 0x1_0000_0000

  const Success: NtStatus := 0x0000_0000
  const BufferOverflow: NtStatus := 0x8000_0005
  const Unsuccessful: NtStatus := 0xC000_0001
  const NotImplemented: NtStatus := 0xC000_0002
  const InvalidParameter: NtStatus := 0xC000_000D
  const AccessDenied: NtStatus := 0xC000_0022
  const ObjectNameNotFound: NtStatus := 0xC000_0034
  const ObjectNameCollision: NtStatus := 0xC000_0035
  const ObjectPathNotFound: NtStatus := 0xC000_003A
  const SharingViolation: NtStatus := 0xC000_0043
  const DiskFull: NtStatus := 0xC000_007F
  const FileIsADirectory: NtStatus := 0xC000_00BA
  const NotSupported: NtStatus := 0xC000_00BB
  const DirectoryNotEmpty: NtStatus := 0xC000_0101
  const NotADirectory: NtStatus := 0xC000_0103

  /** `DokanResult.AlreadyExists` is the object-name-collision status. */
  const AlreadyExists: NtStatus := ObjectNameCollision

  /** The severity field, the two top bits of the code: 0 success,
      1 informational, 2 warning, 3 error. */
  function Severity(s: NtStatus): (r: int)
    ensures 0 <= r < 4
    ensures r * 0x4000_0000 <= s as int < (r + 1) * 0x4000_0000
  {
    s as int / 0x4000_0000
  }

  predicate IsError(s: NtStatus) {
    Severity(s) == 3
  }

  /** The statuses the proxy itself produces on a fault are errors, the
      buffer-overflow status is a warning, and success is a success. */
  lemma FallbacksAreErrors()
    ensures IsError(Unsuccessful) && IsError(InvalidParameter)
    ensures Severity(BufferOverflow) == 2 && Severity(Success) == 0
  {
  }
}

=== FILE: null_format_provider.dfy ===
/** `FormatProviders`: the singleton custom formatter that renders `null`
    arguments as `"<null>"`, and `DokanFormat`, which formats an interpolated
    string with it. An argument's own `ToString` results are part of the
    argument. `Format` hands whatever provider it is given on to
    `IFormattable.ToString`; when `DokanFormat` drives it through composite
    formatting, that provider is the singleton. */
module NullFormatProvider {

  import opened NativeTypes

  const NullStringRepresentation: string := "<null>"

  /** A format provider as `IFormattable.ToString` sees it: the singleton,
      or any other provider a caller of `Format` passes. */
  datatype FormatProvider = DefaultFormatProvider | OtherProvider(name: string)

  /** A non-null argument: `plain` is its `ToString()`; a formattable one
      also has `ToString(format, provider)`, given as `render`. Either may
      return null. */
  datatype Argument =
    | Plain(plain: Option<string>)
    | Formattable(plain: Option<string>,
                  render: (Option<string>, Option<FormatProvider>) -> Option<string>)

  /** `ICustomFormatter.Format`. */
  function Format(format: Option<string>, arg: Option<Argument>, formatProvider: Option<FormatProvider>)
    : (r: Option<string>)
    ensures arg.None? ==> r == Some(NullStringRepresentation)
    ensures arg.Some? && arg.value.Formattable? && arg.value.render(format, formatProvider).Some? ==>
      r == arg.value.render(format, formatProvider)
    ensures arg.Some? && (arg.value.Plain? || arg.value.render(format, formatProvider).None?) ==>
      r == arg.value.plain
  {
    if arg.None? then Some(NullStringRepresentation)
    else
      var formatted := if arg.value.Formattable? then arg.value.render(format, formatProvider) else None;
      if formatted.Some? then formatted else arg.value.plain
  }

  /** The format string and the provider reach only a formattable
      argument: a null or plain argument renders the same under any. */
  lemma FormatIgnoredByPlain(arg: Option<Argument>,
                             f1: Option<string>, p1: Option<FormatProvider>,
                             f2: Option<string>, p2: Option<FormatProvider>)
    requires arg.None? || arg.value.Plain?
    ensures Format(f1, arg, p1) == Format(f2, arg, p2)
  {
  }

  /** The only format type this provider serves. */
  datatype FormatType = CustomFormatterType | OtherFormatType(name: string)

  /** `GetFormat` on the singleton: the provider itself for
      `ICustomFormatter`, else null. */
  function GetFormat(formatType: FormatType): (r: Option<FormatProvider>)
    ensures r.Some? <==> formatType == CustomFormatterType
    ensures r.Some? ==> r.value == DefaultFormatProvider
  {
    if formatType == CustomFormatterType then Some(DefaultFormatProvider) else None
  }

  /** `n` spaces. */
  function Spaces(n: nat): (r: string)
    ensures |r| == n && Utf16Length(r) == n
    ensures forall i :: 0 <= i < n ==> r[i] == ' '
  {
    if n == 0 then "" else
      var r := Spaces(n - 1) + " ";
      Utf16LengthAppend(Spaces(n - 1), " ");
      r
  }

  function Abs(x: int): nat {
    if x < 0 then -x else x
  }

  /** The alignment component `{i,alignment}` of composite formatting: a
      field at least |alignment| UTF-16 code units wide (the width
      `s.Length` measures); a positive alignment pads with spaces on the
      left, a negative one on the right; a value at least that wide is not
      cut. */
  function Align(s: string, alignment: int): (r: string)
    ensures Utf16Length(r) == if Utf16Length(s) < Abs(alignment) then Abs(alignment) else Utf16Length(s)
    ensures |r| - |s| == if Utf16Length(s) < Abs(alignment) then Abs(alignment) - Utf16Length(s) else 0
    ensures alignment >= 0 ==>
      r[|r| - |s|..] == s && forall i :: 0 <= i < |r| - |s| ==> r[i] == ' '
    ensures alignment < 0 ==>
      r[..|s|] == s && forall i :: |s| <= i < |r| ==> r[i] == ' '
  {
    var padding := if Utf16Length(s) < Abs(alignment) then Spaces(Abs(alignment) - Utf16Length(s)) else "";
    Utf16LengthAppend(padding, s);
    Utf16LengthAppend(s, padding);
    if alignment >= 0 then padding + s else s + padding
  }

  /** A character outside the BMP already fills two columns of the width:
      `{0,3}` pads it with one space. */
  lemma SurrogatePairPadding()
    ensures Align("\U{1F600}", 3) == " \U{1F600}"
  {
    assert Utf16Length("\U{1F600}") == 2 by {
      assert "\U{1F600}"[1..] == "";
    }
    assert Spaces(1) == " ";
  }

  /** One piece of a `FormattableString`: literal text, or a hole with its
      argument, its alignment (0 when absent) and optional format string. */
  datatype Piece =
    | Literal(text: string)
    | Hole(arg: Option<Argument>, alignment: int, format: Option<string>)

  /** A hole as `string.Format` writes it through the custom formatter, with
      the singleton as provider: the formatter's result, or nothing if that
      is null (the fallback to the argument's own `ToString` yields the same
      null), then aligned. */
  function RenderPiece(p: Piece): (r: string)
    ensures p.Literal? ==> r == p.text
    ensures p.Hole? && p.arg.None? ==> r == Align(NullStringRepresentation, p.alignment)
    ensures p.Hole? && p.arg.Some? && p.arg.value.Plain? ==>
      r == Align(OrEmpty(p.arg.value.plain), p.alignment)
    ensures p.Hole? && p.arg.Some? && p.arg.value.Formattable? ==>
      var f := p.arg.value.render(p.format, Some(DefaultFormatProvider));
      r == Align(if f.Some? then f.value else OrEmpty(p.arg.value.plain), p.alignment)
  {
    match p
    case Literal(text) => text
    case Hole(arg, alignment, format) =>
      Align(OrEmpty(Format(format, arg, Some(DefaultFormatProvider))), alignment)
  }

  /** A value at least as wide as the alignment is written unpadded; in
      particular an absent alignment (0) adds nothing. */
  lemma NarrowAlignmentAddsNothing(s: string, alignment: int)
    requires Abs(alignment) <= Utf16Length(s)
    ensures Align(s, alignment) == s
  {
  }

  /** The renderings of `xs` under `render`, concatenated in order. */
  function ConcatMap<T>(render: T -> string, xs: seq<T>): string {
    if xs == [] then "" else render(xs[0]) + ConcatMap(render, xs[1..])
  }

  function RenderAll(pieces: seq<Piece>): string {
    ConcatMap(RenderPiece, pieces)
  }

  /** `DokanFormat`: the empty string for null, else the interpolated string
      rendered with the singleton formatter. */
  function DokanFormat(formattable: Option<seq<Piece>>): (r: string)
    ensures formattable.None? ==> r == ""
    ensures formattable.Some? ==> r == RenderAll(formattable.value)
  {
    if formattable.None? then "" else RenderAll(formattable.value)
  }

  /** Concatenating renderings distributes over appending the elements. */
  lemma {:induction false} ConcatMapAppend<T>(render: T -> string, a: seq<T>, b: seq<T>)
    ensures ConcatMap(render, a + b) == ConcatMap(render, a) + ConcatMap(render, b)
    decreases |a|
  {
    if a == [] {
      assert a + b == b;
    } else {
      assert (a + b)[1..] == a[1..] + b;
      ConcatMapAppend(render, a[1..], b);
    }
  }

  /** Rendering is piecewise: the pieces' renderings in order, concatenated. */
  lemma RenderAllAppend(a: seq<Piece>, b: seq<Piece>)
    ensures RenderAll(a + b) == RenderAll(a) + RenderAll(b)
  {
    ConcatMapAppend(RenderPiece, a, b);
  }

  /** Three elements render as their renderings in order. */
  lemma ConcatMapThree<T>(render: T -> string, a: T, b: T, c: T)
    ensures ConcatMap(render, [a, b, c]) == render(a) + render(b) + render(c)
  {
    assert [a, b, c][1..] == [b, c] && [b, c][1..] == [c] && [c][1..] == [];
    assert ConcatMap(render, [c]) == render(c);
    assert ConcatMap(render, [b, c]) == render(b) + render(c);
  }

  /** A null hole between two literals renders as `"<null>"` between them,
      so a log line never loses the position of a null argument. */
  lemma NullHoleShows(before: string, after: string, alignment: int, format: Option<string>)
    ensures DokanFormat(Some([Literal(before), Hole(None, alignment, format), Literal(after)]))
         == before + Align("<null>", alignment) + after
  {
    ConcatMapThree(RenderPiece, Literal(before), Hole(None, alignment, format), Literal(after));
  }
}

=== FILE: proxy_core.dfy ===
/** The recipe every entry point of `DokanOperationProxy` shares: call the
    operations object inside a `try`, pass its status through, and turn any
    exception into a fixed fallback status. The operations object's answer
    to one call is an `Outcome`: the status and out-values it returned, or
    the fact that it threw. */
module ProxyCore {

  import opened NativeTypes
  import opened NtStatusCodes

  datatype Outcome<O> = Returned(status: NtStatus, outs: O) | Threw

  /** The native entry points, one per `*Proxy` method. */
  datatype EntryPoint =
    | ZwCreateFile | Cleanup | CloseFile | ReadFile | WriteFile | FlushFileBuffers
    | GetFileInformation | FindFiles | FindFilesWithPattern | FindStreams
    | SetEndOfFile | SetAllocationSize | SetFileAttributes | SetFileTime
    | DeleteFile | DeleteDirectory | MoveFile | LockFile | UnlockFile
    | GetDiskFreeSpace | GetVolumeInformation | Mounted | Unmounted
    | GetFileSecurity | SetFileSecurity

  /** The two entry points that return nothing. */
  predicate ReturnsVoid(e: EntryPoint) {
    e == Cleanup || e == CloseFile
  }

  /** The status a `catch` block returns: `Unsuccessful` for create,
      `InvalidParameter` for every other status-returning entry point. */
  function Fallback(e: EntryPoint): (r: NtStatus)
    requires !ReturnsVoid(e)
    ensures r == Unsuccessful <==> e == ZwCreateFile
    ensures r == InvalidParameter <==> e != ZwCreateFile
  {
    if e == ZwCreateFile then Unsuccessful else InvalidParameter
  }

  /** A fault is never reported as success, nor as the buffer-overflow
      warning: the native caller always sees an error status. */
  lemma FallbackIsError(e: EntryPoint)
    requires !ReturnsVoid(e)
    ensures IsError(Fallback(e)) && Fallback(e) != Success && Fallback(e) != BufferOverflow
  {
    FallbacksAreErrors();
  }

  /** The status of a call whose only result is its status: the operation's
      own status when it returned, the fallback when it threw. */
  function Contain<O>(e: EntryPoint, outcome: Outcome<O>): (r: NtStatus)
    requires !ReturnsVoid(e)
    ensures outcome.Returned? ==> r == outcome.status
    ensures outcome.Threw? ==> r == Fallback(e)
  {
    if outcome.Returned? then outcome.status else Fallback(e)
  }

  /** How a void entry point ends: normally, or with the exception caught
      and dropped. Neither lets an exception reach the native caller. */
  datatype VoidReply = Completed | FaultSwallowed

  /** The `catch` block of a void entry point: the exception is dropped and
      nothing is reported. */
  function Swallow<O>(e: EntryPoint, outcome: Outcome<O>): (r: VoidReply)
    requires ReturnsVoid(e)
    ensures r == FaultSwallowed <==> outcome.Threw?
  {
    if outcome.Threw? then FaultSwallowed else Completed
  }

  /** The state the proxy keeps: the volume serial number, taken once at
      construction from the operations object's hash code. */
  datatype Proxy = Proxy(serialNumber: uint32)

  /** The constructor: `(uint)operations.GetHashCode()`, the hash given as
      `operationsHash`. */
  function NewProxy(operationsHash: int32): (p: Proxy)
    ensures p.serialNumber as int % TwoTo32 == operationsHash as int % TwoTo32
  {
    Proxy(Unsigned32(operationsHash) as uint32)
  }
}

=== FILE: proxy_files.dfy ===
/** The per-file entry points of `DokanOperationProxy`: create, cleanup,
    close, read, write, flush, metadata, time, size, attribute, delete, move
    and lock requests. Each is a pure function of the raw native arguments
    and the operations object's answer `op`. */
module FileProxies {

  import opened NativeTypes
  import opened NtStatusCodes
  import opened ProxyCore
  import opened FileTimes
  import Masks = EnumMasks
  import FI = FileInformationModel
  import DFI = DokanFileInfoModel

  // ---------------------------------------------------------------- create

  /** What the native `DokanMapKernelToUserCreateFileFlags` yields: the
      combined attributes-and-flags word and the creation disposition. */
  datatype MappedFlags = MappedFlags(fileAttributesAndFlags: bv32, creationDisposition: int32)

  /** The arguments `IDokanOperations.CreateFile` receives. */
  datatype CreateRequest = CreateRequest(
    fileName: string,
    access: bv32,
    share: bv32,
    mode: int32,
    options: bv32,
    attributes: bv32,
    info: DFI.DokanFileInfo)

  /** The request built from the raw words: access and share are the raw
      words narrowed by their masks; attributes and options are both
      narrowed from the one mapped attributes-and-flags word. */
  function CreateRequestFor(
    rawFileName: string, rawDesiredAccess: bv32, rawFileAttributes: bv32,
    rawShareAccess: bv32, rawCreateDisposition: bv32, rawCreateOptions: bv32,
    info: DFI.DokanFileInfo, mapFlags: (bv32, bv32, bv32) -> MappedFlags): (req: CreateRequest)
    ensures req.fileName == rawFileName && req.info == info
    ensures req.access == Masks.Narrow(rawDesiredAccess, Masks.FileAccessMask)
    ensures req.share == Masks.Narrow(rawShareAccess, Masks.FileShareMask)
    ensures var m := mapFlags(rawFileAttributes, rawCreateOptions, rawCreateDisposition);
      && req.mode == m.creationDisposition
      && req.attributes == Masks.Narrow(m.fileAttributesAndFlags, Masks.FileAttributeMask)
      && req.options == Masks.Narrow(m.fileAttributesAndFlags, Masks.FileOptionsMask)
  {
    var m := mapFlags(rawFileAttributes, rawCreateOptions, rawCreateDisposition);
    CreateRequest(
      rawFileName,
      Masks.Narrow(rawDesiredAccess, Masks.FileAccessMask),
      Masks.Narrow(rawShareAccess, Masks.FileShareMask),
      m.creationDisposition,
      Masks.Narrow(m.fileAttributesAndFlags, Masks.FileOptionsMask),
      Masks.Narrow(m.fileAttributesAndFlags, Masks.FileAttributeMask),
      info)
  }

  /** `ZwCreateFileProxy`: the operation's status, or `Unsuccessful` if
      anything in the body throws. The security-context pointer is not
      read. */
  function ZwCreateFileProxy(
    rawFileName: string, rawDesiredAccess: bv32, rawFileAttributes: bv32,
    rawShareAccess: bv32, rawCreateDisposition: bv32, rawCreateOptions: bv32,
    info: DFI.DokanFileInfo, mapFlags: (bv32, bv32, bv32) -> MappedFlags,
    op: CreateRequest -> Outcome<()>): (r: NtStatus)
    ensures var o := op(CreateRequestFor(rawFileName, rawDesiredAccess, rawFileAttributes,
                                         rawShareAccess, rawCreateDisposition, rawCreateOptions,
                                         info, mapFlags));
      && (o.Returned? ==> r == o.status)
      && (o.Threw? ==> r == Unsuccessful)
  {
    var req := CreateRequestFor(rawFileName, rawDesiredAccess, rawFileAttributes,
                                rawShareAccess, rawCreateDisposition, rawCreateOptions,
                                info, mapFlags);
    Contain(ZwCreateFile, op(req))
  }

  /** Every flag word the create operation receives lies inside its mask. */
  lemma CreateRequestInsideMasks(
    rawFileName: string, rawDesiredAccess: bv32, rawFileAttributes: bv32,
    rawShareAccess: bv32, rawCreateDisposition: bv32, rawCreateOptions: bv32,
    info: DFI.DokanFileInfo, mapFlags: (bv32, bv32, bv32) -> MappedFlags)
    ensures var req := CreateRequestFor(rawFileName, rawDesiredAccess, rawFileAttributes,
                                        rawShareAccess, rawCreateDisposition, rawCreateOptions,
                                        info, mapFlags);
            && req.access & !Masks.FileAccessMask == 0
            && req.share & !Masks.FileShareMask == 0
            && req.attributes & !Masks.FileAttributeMask == 0
            && req.options & !Masks.FileOptionsMask == 0
  {
  }

  /** The attribute and option masks share exactly one bit, the encrypted
      flag: it reaches the operation in both words, and no other mapped bit
      does. */
  lemma {:induction false} CreateMasksOverlapInEncrypted(
    rawFileName: string, rawDesiredAccess: bv32, rawFileAttributes: bv32,
    rawShareAccess: bv32, rawCreateDisposition: bv32, rawCreateOptions: bv32,
    info: DFI.DokanFileInfo, mapFlags: (bv32, bv32, bv32) -> MappedFlags)
    ensures var req := CreateRequestFor(rawFileName, rawDesiredAccess, rawFileAttributes,
                                        rawShareAccess, rawCreateDisposition, rawCreateOptions,
                                        info, mapFlags);
            var w := mapFlags(rawFileAttributes, rawCreateOptions, rawCreateDisposition).fileAttributesAndFlags;
            req.attributes & req.options == w & Masks.AttributeEncrypted
  {
    Masks.MaskValues();
    assert Masks.FileAttributeMask & Masks.FileOptionsMask == Masks.AttributeEncrypted;
  }

  // ------------------------------------------------------- cleanup, close

  /** `CleanupProxy`: an exception from the operation is caught and
      dropped. */
  function CleanupProxy(rawFileName: string, info: DFI.DokanFileInfo,
                        op: (string, DFI.DokanFileInfo) -> Outcome<()>): (r: VoidReply)
    ensures r == FaultSwallowed <==> op(rawFileName, info).Threw?
  {
    Swallow(Cleanup, op(rawFileName, info))
  }

  /** `CloseFileProxy`: an exception from the operation is caught and
      dropped. */
  function CloseFileProxy(rawFileName: string, info: DFI.DokanFileInfo,
                          op: (string, DFI.DokanFileInfo) -> Outcome<()>): (r: VoidReply)
    ensures r == FaultSwallowed <==> op(rawFileName, info).Threw?
  {
    Swallow(CloseFile, op(rawFileName, info))
  }

  // ------------------------------------------------------------ read, write

  /** A transfer's status and its byte count. The count is an `out`
      argument the operation assigns itself; after a throw it holds
      whatever the operation left, which the model leaves unspecified
      (`None`). */
  datatype TransferReply = TransferReply(status: NtStatus, count: Option<int32>)

  /** The buffer the operation reads into or writes from, the offset and the
      handle record, as the operation receives them. */
  datatype TransferRequest = TransferRequest(
    fileName: string, buffer: seq<bv8>, offset: int64, info: DFI.DokanFileInfo)

  /** `ReadFileProxy`: the operation's status and read length, or
      `InvalidParameter` on a throw. The buffer is filled by the operation
      directly. */
  function ReadFileProxy(
    rawFileName: string, rawBuffer: seq<bv8>, rawBufferLength: uint32, rawOffset: int64,
    info: DFI.DokanFileInfo, op: TransferRequest -> Outcome<int32>): (r: TransferReply)
    ensures var o := op(TransferRequest(rawFileName, rawBuffer, rawOffset, info));
      && (o.Returned? ==> r == TransferReply(o.status, Some(o.outs)))
      && (o.Threw? ==> r.status == InvalidParameter && r.count.None?)
  {
    var o := op(TransferRequest(rawFileName, rawBuffer, rawOffset, info));
    TransferReply(Contain(ReadFile, o), if o.Returned? then Some(o.outs) else None)
  }

  /** `WriteFileProxy`: the operation's status and written count, or
      `InvalidParameter` on a throw. */
  function WriteFileProxy(
    rawFileName: string, rawBuffer: seq<bv8>, rawNumberOfBytesToWrite: uint32, rawOffset: int64,
    info: DFI.DokanFileInfo, op: TransferRequest -> Outcome<int32>): (r: TransferReply)
    ensures var o := op(TransferRequest(rawFileName, rawBuffer, rawOffset, info));
      && (o.Returned? ==> r == TransferReply(o.status, Some(o.outs)))
      && (o.Threw? ==> r.status == InvalidParameter && r.count.None?)
  {
    var o := op(TransferRequest(rawFileName, rawBuffer, rawOffset, info));
    TransferReply(Contain(WriteFile, o), if o.Returned? then Some(o.outs) else None)
  }

  // ------------------------------------------------ status-only entry points

  /** `FlushFileBuffersProxy`. */
  function FlushFileBuffersProxy(rawFileName: string, info: DFI.DokanFileInfo,
                                 op: (string, DFI.DokanFileInfo) -> Outcome<()>): (r: NtStatus)
    ensures op(rawFileName, info).Returned? ==> r == op(rawFileName, info).status
    ensures op(rawFileName, info).Threw? ==> r == InvalidParameter
  {
    Contain(FlushFileBuffers, op(rawFileName, info))
  }

  /** `SetEndOfFileProxy`. */
  function SetEndOfFileProxy(rawFileName: string, rawByteOffset: int64, info: DFI.DokanFileInfo,
                             op: (string, int64, DFI.DokanFileInfo) -> Outcome<()>): (r: NtStatus)
    ensures op(rawFileName, rawByteOffset, info).Returned? ==>
      r == op(rawFileName, rawByteOffset, info).status
    ensures op(rawFileName, rawByteOffset, info).Threw? ==> r == InvalidParameter
  {
    Contain(SetEndOfFile, op(rawFileName, rawByteOffset, info))
  }

  /** `SetAllocationSizeProxy`. */
  function SetAllocationSizeProxy(rawFileName: string, rawLength: int64, info: DFI.DokanFileInfo,
                                  op: (string, int64, DFI.DokanFileInfo) -> Outcome<()>): (r: NtStatus)
    ensures op(rawFileName, rawLength, info).Returned? ==> r == op(rawFileName, rawLength, info).status
    ensures op(rawFileName, rawLength, info).Threw? ==> r == InvalidParameter
  {
    Contain(SetAllocationSize, op(rawFileName, rawLength, info))
  }

  /** `SetFileAttributesProxy`: the raw attribute word is handed on as it
      came, without the attribute mask. */
  function SetFileAttributesProxy(rawFileName: string, rawAttributes: bv32, info: DFI.DokanFileInfo,
                                  op: (string, bv32, DFI.DokanFileInfo) -> Outcome<()>): (r: NtStatus)
    ensures op(rawFileName, rawAttributes, info).Returned? ==>
      r == op(rawFileName, rawAttributes, info).status
    ensures op(rawFileName, rawAttributes, info).Threw? ==> r == InvalidParameter
  {
    Contain(SetFileAttributes, op(rawFileName, rawAttributes, info))
  }

  /** `DeleteFileProxy`. */
  function DeleteFileProxy(rawFileName: string, info: DFI.DokanFileInfo,
                           op: (string, DFI.DokanFileInfo) -> Outcome<()>): (r: NtStatus)
    ensures op(rawFileName, info).Returned? ==> r == op(rawFileName, info).status
    ensures op(rawFileName, info).Threw? ==> r == InvalidParameter
  {
    Contain(DeleteFile, op(rawFileName, info))
  }

  /** `DeleteDirectoryProxy`. */
  function DeleteDirectoryProxy(rawFileName: string, info: DFI.DokanFileInfo,
                                op: (string, DFI.DokanFileInfo) -> Outcome<()>): (r: NtStatus)
    ensures op(rawFileName, info).Returned? ==> r == op(rawFileName, info).status
    ensures op(rawFileName, info).Threw? ==> r == InvalidParameter
  {
    Contain(DeleteDirectory, op(rawFileName, info))
  }

  /** `MoveFileProxy`. */
  function MoveFileProxy(rawFileName: string, rawNewFileName: string, rawReplaceIfExisting: bool,
                         info: DFI.DokanFileInfo,
                         op: (string, string, bool, DFI.DokanFileInfo) -> Outcome<()>): (r: NtStatus)
    ensures op(rawFileName, rawNewFileName, rawReplaceIfExisting, info).Returned? ==>
      r == op(rawFileName, rawNewFileName, rawReplaceIfExisting, info).status
    ensures op(rawFileName, rawNewFileName, rawReplaceIfExisting, info).Threw? ==> r == InvalidParameter
  {
    Contain(MoveFile, op(rawFileName, rawNewFileName, rawReplaceIfExisting, info))
  }

  /** `LockFileProxy`. */
  function LockFileProxy(rawFileName: string, rawByteOffset: int64, rawLength: int64,
                         info: DFI.DokanFileInfo,
                         op: (string, int64, int64, DFI.DokanFileInfo) -> Outcome<()>): (r: NtStatus)
    ensures op(rawFileName, rawByteOffset, rawLength, info).Returned? ==>
      r == op(rawFileName, rawByteOffset, rawLength, info).status
    ensures op(rawFileName, rawByteOffset, rawLength, info).Threw? ==> r == InvalidParameter
  {
    Contain(LockFile, op(rawFileName, rawByteOffset, rawLength, info))
  }

  /** `UnlockFileProxy`. */
  function UnlockFileProxy(rawFileName: string, rawByteOffset: int64, rawLength: int64,
                           info: DFI.DokanFileInfo,
                           op: (string, int64, int64, DFI.DokanFileInfo) -> Outcome<()>): (r: NtStatus)
    ensures op(rawFileName, rawByteOffset, rawLength, info).Returned? ==>
      r == op(rawFileName, rawByteOffset, rawLength, info).status
    ensures op(rawFileName, rawByteOffset, rawLength, info).Threw? ==> r == InvalidParameter
  {
    Contain(UnlockFile, op(rawFileName, rawByteOffset, rawLength, info))
  }

  // -------------------------------------------------------------- metadata

  /** `BY_HANDLE_FILE_INFORMATION`, the record the native caller passes by
      reference; `fileSize` stands for the high and low size words. */
  datatype ByHandleFileInformation = ByHandleFileInformation(
    fileAttributes: bv32,
    creationTime: FileTime,
    lastAccessTime: FileTime,
    lastWriteTime: FileTime,
    volumeSerialNumber: uint32,
    fileSize: int64,
    numberOfLinks: uint32,
    fileIndexHigh: uint32,
    fileIndexLow: bv32)

  /** `GetFileInformationProxy`: on `Success` the record is overwritten from
      the operation's `FileInformation` (times through `ToFileTime`, one
      link, the proxy's serial number, the name's hash as the low file
      index, 0 for a null name); on any other status, and on a throw, the
      record is left as it was. The runtime's string hash is
      `stringHash`. */
  function GetFileInformationProxy(
    proxy: Proxy, rawFileName: string, rawHandleFileInformation: ByHandleFileInformation,
    info: DFI.DokanFileInfo, stringHash: string -> bv32,
    op: (string, DFI.DokanFileInfo) -> Outcome<FI.FileInformation>)
    : (r: (NtStatus, ByHandleFileInformation))
    ensures var o := op(rawFileName, info);
      && (o.Returned? ==> r.0 == o.status)
      && (o.Threw? ==> r.0 == InvalidParameter)
      && (!(o.Returned? && o.status == Success) ==> r.1 == rawHandleFileInformation)
    ensures var o := op(rawFileName, info);
      o.Returned? && o.status == Success ==>
        && r.1.fileAttributes == o.outs.attributes
        && r.1.creationTime == ToFileTime(o.outs.creationTime)
        && r.1.lastAccessTime == ToFileTime(o.outs.lastAccessTime)
        && r.1.lastWriteTime == ToFileTime(o.outs.lastWriteTime)
        && r.1.volumeSerialNumber == proxy.serialNumber
        && r.1.fileSize == o.outs.length
        && r.1.numberOfLinks == 1
        && r.1.fileIndexHigh == 0
        && (o.outs.fileName.None? ==> r.1.fileIndexLow == 0)
        && (o.outs.fileName.Some? ==> r.1.fileIndexLow == stringHash(o.outs.fileName.value))
  {
    var o := op(rawFileName, info);
    if o.Returned? && o.status == Success then
      var fi := o.outs;
      (Success,
       ByHandleFileInformation(
         fi.attributes,
         ToFileTime(fi.creationTime),
         ToFileTime(fi.lastAccessTime),
         ToFileTime(fi.lastWriteTime),
         proxy.serialNumber,
         fi.length,
         1,
         0,
         if fi.fileName.Some? then stringHash(fi.fileName.value) else 0))
    else
      (Contain(GetFileInformation, o), rawHandleFileInformation)
  }

  // ------------------------------------------------------------ file times

  /** `SetFileTimeProxy`: the three FILETIME arguments are decoded in order;
      if any of them is out of `DateTime`'s range the decode throws, the
      operation is not called and the status is `InvalidParameter`.
      Otherwise the operation receives the three decoded times. */
  function SetFileTimeProxy(
    rawFileName: string, rawCreationTime: FileTime, rawLastAccessTime: FileTime,
    rawLastWriteTime: FileTime, info: DFI.DokanFileInfo,
    op: (string, Option<DateTime>, Option<DateTime>, Option<DateTime>, DFI.DokanFileInfo) -> Outcome<()>)
    : (r: NtStatus)
    ensures (|| DecodeFileTime(rawCreationTime).OutOfRange?
             || DecodeFileTime(rawLastAccessTime).OutOfRange?
             || DecodeFileTime(rawLastWriteTime).OutOfRange?) ==> r == InvalidParameter
    ensures var c, a, w := DecodeFileTime(rawCreationTime), DecodeFileTime(rawLastAccessTime),
                           DecodeFileTime(rawLastWriteTime);
      c.Decoded? && a.Decoded? && w.Decoded? ==>
        var o := op(rawFileName, c.time, a.time, w.time, info);
        && (o.Returned? ==> r == o.status)
        && (o.Threw? ==> r == InvalidParameter)
  {
    var c := DecodeFileTime(rawCreationTime);
    if c.OutOfRange? then InvalidParameter
    else
      var a := DecodeFileTime(rawLastAccessTime);
      if a.OutOfRange? then InvalidParameter
      else
        var w := DecodeFileTime(rawLastWriteTime);
        if w.OutOfRange? then InvalidParameter
        else Contain(SetFileTime, op(rawFileName, c.time, a.time, w.time, info))
  }

  /** Metadata out, times back in: feeding the three FILETIMEs a successful
      metadata query wrote into the set-file-time entry point hands the
      operation the original times, with absent and pre-epoch times (and
      the epoch instant itself) read as "no change". */
  lemma {:induction false} InformationTimesRoundTrip(
    proxy: Proxy, rawFileName: string, rawHandleFileInformation: ByHandleFileInformation,
    info: DFI.DokanFileInfo, stringHash: string -> bv32,
    getOp: (string, DFI.DokanFileInfo) -> Outcome<FI.FileInformation>,
    setOp: (string, Option<DateTime>, Option<DateTime>, Option<DateTime>, DFI.DokanFileInfo) -> Outcome<()>)
    requires getOp(rawFileName, info).Returned? && getOp(rawFileName, info).status == Success
    ensures var fi := getOp(rawFileName, info).outs;
            var rec := GetFileInformationProxy(proxy, rawFileName, rawHandleFileInformation,
                                               info, stringHash, getOp).1;
            SetFileTimeProxy(rawFileName, rec.creationTime, rec.lastAccessTime, rec.lastWriteTime,
                             info, setOp)
            == Contain(SetFileTime, setOp(rawFileName, Surviving(fi.creationTime),
                                          Surviving(fi.lastAccessTime), Surviving(fi.lastWriteTime), info))
  {
    var fi := getOp(rawFileName, info).outs;
    SurvivingDecode(fi.creationTime);
    SurvivingDecode(fi.lastAccessTime);
    SurvivingDecode(fi.lastWriteTime);
  }
}

=== FILE: proxy_find.dfy ===
/** The enumeration entry points of `DokanOperationProxy`: `FindFilesProxy`,
    `FindFilesWithPatternProxy` and `FindStreamsProxy`. On success the
    operation's list is handed, entry by entry and in order, to the native
    fill callback; the model's result is the status together with the
    sequence of records the callback received. Every fill call also gets
    the entry point's own `DokanFileInfo`, unchanged, so it is not part of
    the recorded sequence. */
module FindProxies {

  import opened NativeTypes
  import opened NtStatusCodes
  import opened ProxyCore
  import opened FileTimes
  import FI = FileInformationModel
  import DFI = DokanFileInfoModel

  /** `WIN32_FIND_DATA` as the fill callback receives it. */
  datatype FindData = FindData(
    fileAttributes: bv32,
    creationTime: FileTime,
    lastAccessTime: FileTime,
    lastWriteTime: FileTime,
    fileSize: int64,
    fileName: Option<string>)

  /** `WIN32_FIND_STREAM_DATA` as the fill callback receives it. */
  datatype FindStreamData = FindStreamData(streamSize: int64, streamName: Option<string>)

  /** The status and the fill-callback records, in call order. */
  datatype Enumeration<D> = Enumeration(status: NtStatus, fills: seq<D>)

  /** The file `AddTo`: one record from one entry, the times through
      `ToFileTime`, the attributes unmasked. */
  function AddTo(fi: FI.FileInformation): (d: FindData)
    ensures d.fileName == fi.fileName && d.fileAttributes == fi.attributes && d.fileSize == fi.length
    ensures DecodeFileTime(d.creationTime) == Decoded(Surviving(fi.creationTime))
    ensures DecodeFileTime(d.lastAccessTime) == Decoded(Surviving(fi.lastAccessTime))
    ensures DecodeFileTime(d.lastWriteTime) == Decoded(Surviving(fi.lastWriteTime))
    ensures d.creationTime == ToFileTime(fi.creationTime)
    ensures d.lastAccessTime == ToFileTime(fi.lastAccessTime)
    ensures d.lastWriteTime == ToFileTime(fi.lastWriteTime)
  {
    SurvivingDecode(fi.creationTime);
    SurvivingDecode(fi.lastAccessTime);
    SurvivingDecode(fi.lastWriteTime);
    FindData(fi.attributes, ToFileTime(fi.creationTime), ToFileTime(fi.lastAccessTime),
             ToFileTime(fi.lastWriteTime), fi.length, fi.fileName)
  }

  /** The stream `AddTo`: only the name and the length are carried. */
  function AddToStream(fi: FI.FileInformation): (d: FindStreamData)
    ensures d.streamName == fi.fileName && d.streamSize == fi.length
  {
    FindStreamData(fi.length, fi.fileName)
  }

  /** The `foreach` over the list: one fill call per entry, in list order. */
  function FillFiles(files: seq<FI.FileInformation>): (fills: seq<FindData>)
    ensures |fills| == |files|
    ensures forall i :: 0 <= i < |files| ==> fills[i] == AddTo(files[i])
  {
    if files == [] then [] else [AddTo(files[0])] + FillFiles(files[1..])
  }

  /** The `foreach` over the stream list. */
  function FillStreams(files: seq<FI.FileInformation>): (fills: seq<FindStreamData>)
    ensures |fills| == |files|
    ensures forall i :: 0 <= i < |files| ==> fills[i] == AddToStream(files[i])
  {
    if files == [] then [] else [AddToStream(files[0])] + FillStreams(files[1..])
  }

  /** What an enumeration entry point does with the operation's answer. A
      null list on `Success` is dereferenced and faults; a zero fill
      pointer with a non-empty list makes the delegate lookup fault; both
      faults are caught and yield `InvalidParameter` with no fill calls. */
  predicate FillsList(o: Outcome<Option<seq<FI.FileInformation>>>, rawFillFindData: nat) {
    && o.Returned? && o.status == Success && o.outs.Some?
    && (|o.outs.value| == 0 || rawFillFindData != 0)
  }

  /** The status of an enumeration when the list is not handed on: the
      operation's failure status, or `InvalidParameter` for a fault. */
  function NoFillStatus(o: Outcome<Option<seq<FI.FileInformation>>>): (r: NtStatus)
    ensures o.Returned? && o.status != Success ==> r == o.status
    ensures o.Threw? || (o.Returned? && o.status == Success) ==> r == InvalidParameter
  {
    if o.Returned? && o.status != Success then o.status else InvalidParameter
  }

  /** The shared body of the two file enumerations. */
  function EnumerateFiles(o: Outcome<Option<seq<FI.FileInformation>>>, rawFillFindData: nat)
    : (r: Enumeration<FindData>)
    ensures FillsList(o, rawFillFindData) ==> r.status == Success
    ensures FillsList(o, rawFillFindData) ==>
      |r.fills| == |o.outs.value|
      && forall i :: 0 <= i < |r.fills| ==> r.fills[i] == AddTo(o.outs.value[i])
    ensures !FillsList(o, rawFillFindData) ==> r == Enumeration(NoFillStatus(o), [])
  {
    if FillsList(o, rawFillFindData) then Enumeration(Success, FillFiles(o.outs.value))
    else Enumeration(NoFillStatus(o), [])
  }

  /** `FindFilesProxy`. */
  function FindFilesProxy(
    rawFileName: string, rawFillFindData: nat, info: DFI.DokanFileInfo,
    op: (string, DFI.DokanFileInfo) -> Outcome<Option<seq<FI.FileInformation>>>)
    : (r: Enumeration<FindData>)
    ensures var o := op(rawFileName, info);
      && (o.Threw? ==> r == Enumeration(InvalidParameter, []))
      && (o.Returned? && o.status != Success ==> r == Enumeration(o.status, []))
      && (o.Returned? && o.status == Success && o.outs.None? ==> r == Enumeration(InvalidParameter, []))
      && (o.Returned? && o.status == Success && o.outs.Some? && |o.outs.value| > 0 && rawFillFindData == 0
          ==> r == Enumeration(InvalidParameter, []))
      && (FillsList(o, rawFillFindData) ==>
            && r.status == Success && |r.fills| == |o.outs.value|
            && forall i :: 0 <= i < |r.fills| ==> r.fills[i] == AddTo(o.outs.value[i]))
  {
    EnumerateFiles(op(rawFileName, info), rawFillFindData)
  }

  /** `FindFilesWithPatternProxy`: the pattern is handed to the operation;
      everything after the call is as for `FindFilesProxy`. */
  function FindFilesWithPatternProxy(
    rawFileName: string, rawSearchPattern: string, rawFillFindData: nat, info: DFI.DokanFileInfo,
    op: (string, string, DFI.DokanFileInfo) -> Outcome<Option<seq<FI.FileInformation>>>)
    : (r: Enumeration<FindData>)
    ensures var o := op(rawFileName, rawSearchPattern, info);
      && (o.Threw? ==> r == Enumeration(InvalidParameter, []))
      && (o.Returned? && o.status != Success ==> r == Enumeration(o.status, []))
      && (o.Returned? && o.status == Success && o.outs.None? ==> r == Enumeration(InvalidParameter, []))
      && (o.Returned? && o.status == Success && o.outs.Some? && |o.outs.value| > 0 && rawFillFindData == 0
          ==> r == Enumeration(InvalidParameter, []))
      && (FillsList(o, rawFillFindData) ==>
            && r.status == Success && |r.fills| == |o.outs.value|
            && forall i :: 0 <= i < |r.fills| ==> r.fills[i] == AddTo(o.outs.value[i]))
  {
    EnumerateFiles(op(rawFileName, rawSearchPattern, info), rawFillFindData)
  }

  /** `FindStreamsProxy`: as `FindFilesProxy`, with stream records. */
  function FindStreamsProxy(
    rawFileName: string, rawFillFindData: nat, info: DFI.DokanFileInfo,
    op: (string, DFI.DokanFileInfo) -> Outcome<Option<seq<FI.FileInformation>>>)
    : (r: Enumeration<FindStreamData>)
    ensures var o := op(rawFileName, info);
      && (o.Threw? ==> r == Enumeration(InvalidParameter, []))
      && (o.Returned? && o.status != Success ==> r == Enumeration(o.status, []))
      && (o.Returned? && o.status == Success && o.outs.None? ==> r == Enumeration(InvalidParameter, []))
      && (o.Returned? && o.status == Success && o.outs.Some? && |o.outs.value| > 0 && rawFillFindData == 0
          ==> r == Enumeration(InvalidParameter, []))
      && (FillsList(o, rawFillFindData) ==>
            && r.status == Success && |r.fills| == |o.outs.value|
            && forall i :: 0 <= i < |r.fills| ==> r.fills[i] == AddToStream(o.outs.value[i]))
  {
    var o := op(rawFileName, info);
    if FillsList(o, rawFillFindData) then Enumeration(Success, FillStreams(o.outs.value))
    else Enumeration(NoFillStatus(o), [])
  }

  /** The fill callback is reached only on success: any other result comes
      with no fill calls at all, and a non-empty fill sequence means the
      operation returned `Success` with exactly that many entries. */
  lemma FillsOnlyOnSuccess(
    rawFileName: string, rawFillFindData: nat, info: DFI.DokanFileInfo,
    op: (string, DFI.DokanFileInfo) -> Outcome<Option<seq<FI.FileInformation>>>)
    ensures var r := FindFilesProxy(rawFileName, rawFillFindData, info, op);
            var o := op(rawFileName, info);
            (r.status != Success ==> r.fills == [])
            && (r.fills != [] ==> o.Returned? && o.status == Success && o.outs.Some?
                                  && |o.outs.value| == |r.fills|)
    ensures var r := FindStreamsProxy(rawFileName, rawFillFindData, info, op);
            var o := op(rawFileName, info);
            (r.status != Success ==> r.fills == [])
            && (r.fills != [] ==> o.Returned? && o.status == Success && o.outs.Some?
                                  && |o.outs.value| == |r.fills|)
  {
  }

  /** The two file enumerations differ only in what they ask: given the same
      answer they report the same status and make the same fill calls. */
  lemma PatternAgreesWithFindFiles(
    rawFileName: string, rawSearchPattern: string, rawFillFindData: nat, info: DFI.DokanFileInfo,
    op: (string, DFI.DokanFileInfo) -> Outcome<Option<seq<FI.FileInformation>>>,
    patternOp: (string, string, DFI.DokanFileInfo) -> Outcome<Option<seq<FI.FileInformation>>>)
    requires patternOp(rawFileName, rawSearchPattern, info) == op(rawFileName, info)
    ensures FindFilesWithPatternProxy(rawFileName, rawSearchPattern, rawFillFindData, info, patternOp)
         == FindFilesProxy(rawFileName, rawFillFindData, info, op)
  {
  }

  /** Stream and file enumerations of the same list agree entry by entry on
      name and size. */
  lemma {:induction false} StreamsMatchFiles(files: seq<FI.FileInformation>)
    ensures |FillStreams(files)| == |FillFiles(files)|
    ensures forall i :: 0 <= i < |files| ==>
      && FillStreams(files)[i].streamName == FillFiles(files)[i].fileName
      && FillStreams(files)[i].streamSize == FillFiles(files)[i].fileSize
  {
  }

  /** Filling is compositional: the records for a concatenated list are the
      records for each part, in order. */
  lemma {:induction false} FillFilesAppend(a: seq<FI.FileInformation>, b: seq<FI.FileInformation>)
    ensures FillFiles(a + b) == FillFiles(a) + FillFiles(b)
  {
    var l, r := FillFiles(a + b), FillFiles(a) + FillFiles(b);
    assert |l| == |r|;
    forall i | 0 <= i < |l|
      ensures l[i] == r[i]
    {
      if i < |a| {
        assert (a + b)[i] == a[i];
      } else {
        assert (a + b)[i] == b[i - |a|];
      }
    }
  }
}

=== FILE: proxy_security.dfy ===
/** The security entry points of `DokanOperationProxy`. Both decompose the
    native SECURITY_INFORMATION word into `AccessControlSections` before
    the `try`. The get side serialises the operation's security object into
    the caller's buffer, subject to its capacity; the set side copies the
    caller's descriptor bytes into a new directory or file security object.
    A security object is represented by its binary form. */
module SecurityProxies {

  import opened NativeTypes
  import opened NtStatusCodes
  import opened ProxyCore
  import opened SecuritySections
  import opened FileSystemSecurityModel
  import DFI = DokanFileInfoModel

  /** The status, the caller's descriptor buffer (`None` for a null
      pointer), and the length-needed word, after the call. */
  datatype SecurityReply = SecurityReply(status: NtStatus, descriptor: Option<seq<bv8>>, lengthNeeded: uint32)

  /** `GetFileSecurityProxy`. The caller's buffer is `None` for a null
      pointer, else exactly `rawSecurityDescriptorLength` bytes long. The
      operation answers with the binary form of its security object, or
      `None` for a null object (which faults on `Success`). On `Success` the
      length needed is reported first; a descriptor longer than the stated
      capacity yields `BufferOverflow` and copies nothing; otherwise the
      bytes are copied to the start of the buffer, and a null pointer makes
      that copy throw, which yields `InvalidParameter`. Every other outcome
      leaves the buffer and the length-needed word alone. */
  function GetFileSecurityProxy(
    rawFileName: string, rawRequestedInformation: bv32, rawSecurityDescriptor: Option<seq<bv8>>,
    rawSecurityDescriptorLength: uint32, rawSecurityDescriptorLengthNeeded: uint32,
    info: DFI.DokanFileInfo, op: (string, bv32, DFI.DokanFileInfo) -> Outcome<Option<Bytes>>)
    : (r: SecurityReply)
    requires rawSecurityDescriptor.Some? ==> |rawSecurityDescriptor.value| == rawSecurityDescriptorLength as int
    ensures r.descriptor.Some? <==> rawSecurityDescriptor.Some?
    ensures r.descriptor.Some? ==> |r.descriptor.value| == |rawSecurityDescriptor.value|
    ensures var o := op(rawFileName, Sections(rawRequestedInformation), info);
      && (o.Threw? ==> r == SecurityReply(InvalidParameter, rawSecurityDescriptor, rawSecurityDescriptorLengthNeeded))
      && (o.Returned? && o.status != Success ==>
            r == SecurityReply(o.status, rawSecurityDescriptor, rawSecurityDescriptorLengthNeeded))
      && (o.Returned? && o.status == Success && o.outs.None? ==>
            r == SecurityReply(InvalidParameter, rawSecurityDescriptor, rawSecurityDescriptorLengthNeeded))
    ensures var o := op(rawFileName, Sections(rawRequestedInformation), info);
      o.Returned? && o.status == Success && o.outs.Some? ==>
        var bytes := o.outs.value;
        && r.lengthNeeded as int == |bytes|
        && (|bytes| > rawSecurityDescriptorLength as int <==> r.status == BufferOverflow)
        && (|bytes| > rawSecurityDescriptorLength as int || rawSecurityDescriptor.None? ==>
              r.descriptor == rawSecurityDescriptor)
        && (|bytes| <= rawSecurityDescriptorLength as int && rawSecurityDescriptor.None? ==>
              r.status == InvalidParameter)
        && (|bytes| <= rawSecurityDescriptorLength as int && rawSecurityDescriptor.Some? ==>
              && r.status == Success
              && r.descriptor.value[..|bytes|] == bytes
              && r.descriptor.value[|bytes|..] == rawSecurityDescriptor.value[|bytes|..])
  {
    var o := op(rawFileName, Sections(rawRequestedInformation), info);
    if o.Returned? && o.status == Success && o.outs.Some? then
      var bytes := o.outs.value;
      var needed := |bytes| as uint32;
      if |bytes| > rawSecurityDescriptorLength as int then
        SecurityReply(BufferOverflow, rawSecurityDescriptor, needed)
      else if rawSecurityDescriptor.None? then
        SecurityReply(InvalidParameter, None, needed)
      else
        SecurityReply(Success, Some(bytes + rawSecurityDescriptor.value[|bytes|..]), needed)
    else
      SecurityReply(
        if o.Returned? && o.status == Success then InvalidParameter else Contain(GetFileSecurity, o),
        rawSecurityDescriptor, rawSecurityDescriptorLengthNeeded)
  }

  /** The kind of security object the set side builds: directory security
      for a directory handle, file security otherwise. */
  function KindFor(info: DFI.DokanFileInfo): (k: SecurityKind)
    ensures k == DirectorySecurity <==> info.isDirectory
  {
    if info.isDirectory then DirectorySecurity else FileSecurity
  }

  /** `SetFileSecurityProxy`. The first `rawSecurityDescriptorLength` bytes
      at the caller's pointer are copied and given to a new security object
      of the handle's kind. The copy buffer is allocated before the `try`, so
      a length beyond the largest array would escape the entry point; such
      lengths are not part of the model. A null pointer (`None`) makes the
      copy throw, and
      bytes the platform rejects make the second step throw; either yields
      `InvalidParameter` without calling the operation. */
  function SetFileSecurityProxy(
    rawFileName: string, rawSecurityInformation: bv32, rawSecurityDescriptor: Option<Bytes>,
    rawSecurityDescriptorLength: uint32, info: DFI.DokanFileInfo, wellFormed: seq<bv8> -> bool,
    op: (string, FileSystemSecurity, bv32, DFI.DokanFileInfo) -> Outcome<()>): (r: NtStatus)
    requires rawSecurityDescriptorLength as int < 0x8000_0000
    requires rawSecurityDescriptor.Some? ==> rawSecurityDescriptorLength as int <= |rawSecurityDescriptor.value|
    ensures rawSecurityDescriptor.None? ==> r == InvalidParameter
    ensures rawSecurityDescriptor.Some? ==>
      var bytes := rawSecurityDescriptor.value[..rawSecurityDescriptorLength];
      !wellFormed(bytes) ==> r == InvalidParameter
    ensures rawSecurityDescriptor.Some? ==>
      var bytes := rawSecurityDescriptor.value[..rawSecurityDescriptorLength];
      wellFormed(bytes) ==>
        var o := op(rawFileName, FileSystemSecurity(KindFor(info), Some(bytes)),
                    Sections(rawSecurityInformation), info);
        && (o.Returned? ==> r == o.status)
        && (o.Threw? ==> r == InvalidParameter)
  {
    if rawSecurityDescriptor.None? then InvalidParameter
    else
      var bytes := rawSecurityDescriptor.value[..rawSecurityDescriptorLength];
      match SetBinaryForm(NewSecurity(KindFor(info)), bytes, wellFormed)
      case None => InvalidParameter
      case Some(sec) => Contain(SetFileSecurity, op(rawFileName, sec, Sections(rawSecurityInformation), info))
  }

  /** Get then set: feeding the buffer and length a successful get wrote
      into the set entry point hands the set operation exactly the
      descriptor the get operation produced, for the same sections. A
      successful get implies the buffer was not null. */
  lemma {:induction false} SecurityRoundTrip(
    rawFileName: string, rawInformation: bv32, rawSecurityDescriptor: Option<seq<bv8>>,
    rawSecurityDescriptorLength: uint32, rawSecurityDescriptorLengthNeeded: uint32,
    info: DFI.DokanFileInfo, wellFormed: seq<bv8> -> bool,
    getOp: (string, bv32, DFI.DokanFileInfo) -> Outcome<Option<Bytes>>,
    setOp: (string, FileSystemSecurity, bv32, DFI.DokanFileInfo) -> Outcome<()>)
    requires rawSecurityDescriptorLength as int < 0x8000_0000
    requires rawSecurityDescriptor.Some? ==> |rawSecurityDescriptor.value| == rawSecurityDescriptorLength as int
    requires GetFileSecurityProxy(rawFileName, rawInformation, rawSecurityDescriptor,
                                  rawSecurityDescriptorLength, rawSecurityDescriptorLengthNeeded,
                                  info, getOp).status == Success
    requires var o := getOp(rawFileName, Sections(rawInformation), info);
             o.Returned? && o.outs.Some? && wellFormed(o.outs.value)
    ensures var g := GetFileSecurityProxy(rawFileName, rawInformation, rawSecurityDescriptor,
                                          rawSecurityDescriptorLength, rawSecurityDescriptorLengthNeeded,
                                          info, getOp);
            var bytes := getOp(rawFileName, Sections(rawInformation), info).outs.value;
            && g.descriptor.Some?
            && g.lengthNeeded as int <= |g.descriptor.value|
            && SetFileSecurityProxy(rawFileName, rawInformation, g.descriptor, g.lengthNeeded,
                                    info, wellFormed, setOp)
               == Contain(SetFileSecurity, setOp(rawFileName, FileSystemSecurity(KindFor(info), Some(bytes)),
                                                 Sections(rawInformation), info))
  {
    var g := GetFileSecurityProxy(rawFileName, rawInformation, rawSecurityDescriptor,
                                  rawSecurityDescriptorLength, rawSecurityDescriptorLengthNeeded,
                                  info, getOp);
    var bytes := getOp(rawFileName, Sections(rawInformation), info).outs.value;
    assert g.descriptor.value[..g.lengthNeeded] == bytes;
  }
}

=== FILE: proxy_volume.dfy ===
/** The volume-level entry points of `DokanOperationProxy`: free space,
    volume information, mount and unmount notifications. */
module VolumeProxies {

  import opened NativeTypes
  import opened NtStatusCodes
  import opened ProxyCore
  import DFI = DokanFileInfoModel

  /** The three sizes `GetDiskFreeSpace` reports. */
  datatype DiskFreeSpace = DiskFreeSpace(
    freeBytesAvailable: int64, totalNumberOfBytes: int64, totalNumberOfFreeBytes: int64)

  /** The status and the sizes. The sizes are `out` arguments the operation
      assigns itself; after a throw they are unspecified (`None`). */
  datatype DiskFreeSpaceReply = DiskFreeSpaceReply(status: NtStatus, space: Option<DiskFreeSpace>)

  /** `GetDiskFreeSpaceProxy`. */
  function GetDiskFreeSpaceProxy(info: DFI.DokanFileInfo,
                                 op: DFI.DokanFileInfo -> Outcome<DiskFreeSpace>): (r: DiskFreeSpaceReply)
    ensures op(info).Returned? ==> r == DiskFreeSpaceReply(op(info).status, Some(op(info).outs))
    ensures op(info).Threw? ==> r.status == InvalidParameter && r.space.None?
  {
    var o := op(info);
    DiskFreeSpaceReply(Contain(GetDiskFreeSpace, o), if o.Returned? then Some(o.outs) else None)
  }

  /** What `IDokanOperations.GetVolumeInformation` hands back: the volume
      label, the `FileSystemFeatures` word and the file-system name. */
  datatype VolumeInformation = VolumeInformation(
    volumeLabel: Option<string>, features: bv32, fileSystemName: Option<string>)

  /** Everything the native caller sees after the call: the status, the two
      string buffers, the serial number, the maximum component length and
      the feature flags (an `out` argument of the operation, unspecified
      after a throw). */
  datatype VolumeReply = VolumeReply(
    status: NtStatus,
    volumeNameBuffer: string,
    volumeSerialNumber: uint32,
    maximumComponentLength: uint32,
    fileSystemFlags: Option<bv32>,
    fileSystemNameBuffer: string)

  /** The maximum component length every volume reports. */
  const MaximumComponentLength: uint32 := 256

  /** `GetVolumeInformationProxy`: the serial number and the maximum
      component length are set before the `try`, so they are reported
      whatever the operation does; the label and the name are appended to
      the caller's buffers only on `Success` (a null string appends
      nothing). */
  function GetVolumeInformationProxy(
    proxy: Proxy, rawVolumeNameBuffer: string, rawFileSystemNameBuffer: string,
    info: DFI.DokanFileInfo, op: DFI.DokanFileInfo -> Outcome<VolumeInformation>): (r: VolumeReply)
    ensures r.volumeSerialNumber == proxy.serialNumber && r.maximumComponentLength == 256
    ensures op(info).Threw? ==>
      && r.status == InvalidParameter && r.fileSystemFlags.None?
      && r.volumeNameBuffer == rawVolumeNameBuffer && r.fileSystemNameBuffer == rawFileSystemNameBuffer
    ensures op(info).Returned? ==>
      r.status == op(info).status && r.fileSystemFlags == Some(op(info).outs.features)
    ensures op(info).Returned? && op(info).status != Success ==>
      r.volumeNameBuffer == rawVolumeNameBuffer && r.fileSystemNameBuffer == rawFileSystemNameBuffer
    ensures op(info).Returned? && op(info).status == Success ==>
      && r.volumeNameBuffer == rawVolumeNameBuffer + OrEmpty(op(info).outs.volumeLabel)
      && r.fileSystemNameBuffer == rawFileSystemNameBuffer + OrEmpty(op(info).outs.fileSystemName)
  {
    var o := op(info);
    var appended := o.Returned? && o.status == Success;
    VolumeReply(
      Contain(GetVolumeInformation, o),
      if appended then rawVolumeNameBuffer + OrEmpty(o.outs.volumeLabel) else rawVolumeNameBuffer,
      proxy.serialNumber,
      MaximumComponentLength,
      if o.Returned? then Some(o.outs.features) else None,
      if appended then rawFileSystemNameBuffer + OrEmpty(o.outs.fileSystemName) else rawFileSystemNameBuffer)
  }

  /** The serial number reported is the one the proxy took at
      construction: the operations object's hash read as unsigned. */
  lemma SerialNumberIsStable(
    operationsHash: int32, rawVolumeNameBuffer: string, rawFileSystemNameBuffer: string,
    info: DFI.DokanFileInfo, op: DFI.DokanFileInfo -> Outcome<VolumeInformation>)
    ensures var p := NewProxy(operationsHash);
            GetVolumeInformationProxy(p, rawVolumeNameBuffer, rawFileSystemNameBuffer, info, op)
              .volumeSerialNumber as int % TwoTo32 == operationsHash as int % TwoTo32
  {
  }

  /** The buffers are only ever extended: what the caller put there stays
      as a prefix. */
  lemma BuffersOnlyGrow(
    proxy: Proxy, rawVolumeNameBuffer: string, rawFileSystemNameBuffer: string,
    info: DFI.DokanFileInfo, op: DFI.DokanFileInfo -> Outcome<VolumeInformation>)
    ensures var r := GetVolumeInformationProxy(proxy, rawVolumeNameBuffer, rawFileSystemNameBuffer, info, op);
            rawVolumeNameBuffer <= r.volumeNameBuffer && rawFileSystemNameBuffer <= r.fileSystemNameBuffer
  {
  }

  /** `MountedProxy`. */
  function MountedProxy(info: DFI.DokanFileInfo, op: DFI.DokanFileInfo -> Outcome<()>): (r: NtStatus)
    ensures op(info).Returned? ==> r == op(info).status
    ensures op(info).Threw? ==> r == InvalidParameter
  {
    Contain(Mounted, op(info))
  }

  /** `UnmountedProxy`. */
  function UnmountedProxy(info: DFI.DokanFileInfo, op: DFI.DokanFileInfo -> Outcome<()>): (r: NtStatus)
    ensures op(info).Returned? ==> r == op(info).status
    ensures op(info).Threw? ==> r == InvalidParameter
  {
    Contain(Unmounted, op(info))
  }
}

=== FILE: security_sections.dfy ===
/** The decomposition of a native SECURITY_INFORMATION word into the
    `AccessControlSections` set, shared by the get- and set-security entry
    points. Flag values are the Windows SECURITY_INFORMATION bits and the
    .NET `AccessControlSections` members. */
module SecuritySections {

  // SECURITY_INFORMATION
  const OWNER_SECURITY_INFORMATION: bv32 := 0x0000_0001
  const GROUP_SECURITY_INFORMATION: bv32 := 0x0000_0002
  const DACL_SECURITY_INFORMATION: bv32 := 0x0000_0004
  const SACL_SECURITY_INFORMATION: bv32 := 0x0000_0008
  const UNPROTECTED_SACL_SECURITY_INFORMATION: bv32 := 0x1000_0000
  const UNPROTECTED_DACL_SECURITY_INFORMATION: bv32 := 0x2000_0000
  const PROTECTED_SACL_SECURITY_INFORMATION: bv32 := 0x4000_0000
  const PROTECTED_DACL_SECURITY_INFORMATION: bv32 := 0x8000_0000

  // AccessControlSections
  const SectionsNone: bv32 := 0x0
  const Audit: bv32 := 0x1
  const Access: bv32 := 0x2
  const Owner: bv32 := 0x4
  const Group: bv32 := 0x8

  /** `Enum.HasFlag`: every bit of `flag` is set in `value`. */
  predicate HasFlag(value: bv32, flag: bv32) {
    value & flag == flag
  }

  /** Any of the plain, protected or unprotected DACL bits. */
  predicate AnyDacl(info: bv32) {
    HasFlag(info, DACL_SECURITY_INFORMATION)
    || HasFlag(info, PROTECTED_DACL_SECURITY_INFORMATION)
    || HasFlag(info, UNPROTECTED_DACL_SECURITY_INFORMATION)
  }

  /** Any of the plain, protected or unprotected SACL bits. */
  predicate AnySacl(info: bv32) {
    HasFlag(info, SACL_SECURITY_INFORMATION)
    || HasFlag(info, PROTECTED_SACL_SECURITY_INFORMATION)
    || HasFlag(info, UNPROTECTED_SACL_SECURITY_INFORMATION)
  }

  /** Builds the section set by or-ing in one section per matching bit, in
      the order the proxy tests them. */
  function Sections(info: bv32): (sect: bv32)
    ensures sect & !(Owner | Group | Access | Audit) == 0
    ensures HasFlag(sect, Owner) <==> info & OWNER_SECURITY_INFORMATION != 0
    ensures HasFlag(sect, Group) <==> info & GROUP_SECURITY_INFORMATION != 0
    ensures HasFlag(sect, Access) <==>
      info & (DACL_SECURITY_INFORMATION | PROTECTED_DACL_SECURITY_INFORMATION
              | UNPROTECTED_DACL_SECURITY_INFORMATION) != 0
    ensures HasFlag(sect, Audit) <==>
      info & (SACL_SECURITY_INFORMATION | PROTECTED_SACL_SECURITY_INFORMATION
              | UNPROTECTED_SACL_SECURITY_INFORMATION) != 0
  {
    var s0 := SectionsNone;
    var s1 := if HasFlag(info, OWNER_SECURITY_INFORMATION) then s0 | Owner else s0;
    var s2 := if HasFlag(info, GROUP_SECURITY_INFORMATION) then s1 | Group else s1;
    var s3 := if AnyDacl(info) then s2 | Access else s2;
    if AnySacl(info) then s3 | Audit else s3
  }

  /** The decomposition distributes over combining requests: asking for two
      sets of bits at once asks for the union of their sections. */
  lemma SectionsDistribute(a: bv32, b: bv32)
    ensures Sections(a | b) == Sections(a) | Sections(b)
  {
    var sa, sb, sab := Sections(a), Sections(b), Sections(a | b);
    assert HasFlag(sab, Owner) <==> HasFlag(sa | sb, Owner);
    assert HasFlag(sab, Group) <==> HasFlag(sa | sb, Group);
    assert HasFlag(sab, Access) <==> HasFlag(sa | sb, Access);
    assert HasFlag(sab, Audit) <==> HasFlag(sa | sb, Audit);
  }

  /** The protected and unprotected variants select the same section as the
      plain bit, and bits outside the eight known ones select nothing. */
  lemma VariantsShareSections(other: bv32)
    ensures Sections(PROTECTED_DACL_SECURITY_INFORMATION) == Sections(DACL_SECURITY_INFORMATION) == Access
    ensures Sections(UNPROTECTED_DACL_SECURITY_INFORMATION) == Access
    ensures Sections(PROTECTED_SACL_SECURITY_INFORMATION) == Sections(SACL_SECURITY_INFORMATION) == Audit
    ensures Sections(UNPROTECTED_SACL_SECURITY_INFORMATION) == Audit
    ensures other & 0xF000_000F == 0 ==> Sections(other) == SectionsNone
  {
  }
}

=== FILE: unicode_string.dfy ===
/** `UNICODE_STRING`: a counted UTF-16 string whose buffer lives on the
    unmanaged heap. Lengths are byte counts in `ushort` fields, two per
    UTF-16 code unit; the buffer is written by `Marshal.StringToHGlobalUni`
    (the characters and a NUL) and read back by `Marshal.PtrToStringUni`
    (up to the first NUL). A block is kept as the characters it encodes,
    whatever their encoded width. */
module UnicodeStringModel {

  import opened NativeTypes
  import opened Heap

  /** The unmanaged heap: each block holds the characters it encodes. */
  type Memory = Heap<seq<char>>

  datatype UnicodeString = UnicodeString(length: uint16, maximumLength: uint16, buffer: nat)

  const Nul: char := 0 as char

  /** The characters before the first NUL (all of them if there is none). */
  function TakeUntilNul(block: seq<char>): (r: seq<char>)
    ensures r <= block
    ensures Nul !in r
    ensures |r| < |block| ==> block[|r|] == Nul
  {
    if block == [] || block[0] == Nul then []
    else [block[0]] + TakeUntilNul(block[1..])
  }

  /** A trailing NUL does not change what is read back. */
  lemma {:induction false} TakeUntilNulTerminated(s: seq<char>)
    ensures TakeUntilNul(s + [Nul]) == TakeUntilNul(s)
    decreases |s|
  {
    if s == [] {
    } else if s[0] == Nul {
    } else {
      assert (s + [Nul])[1..] == s[1..] + [Nul];
      TakeUntilNulTerminated(s[1..]);
    }
  }

  /** The 16-bit truncation of the unchecked `(ushort)` cast. */
  function ToUInt16(v: nat): (r: uint16)
    ensures r as int == v % 0x1_0000
  {
    (v % 0x1_0000) as uint16
  }

  /** The constructor (also the explicit `string -> UNICODE_STRING`
      conversion): `Length` is twice the UTF-16 length (`s.Length`) and
      `MaximumLength` two more, both truncated to 16 bits; the buffer is a
      new block, at the allocator's address `address`, holding the
      characters and a terminating NUL. */
  function New(s: string, memory: Memory, address: nat): (r: (UnicodeString, Memory))
    requires Valid(memory) && Unused(memory, address)
    ensures r.0.length as int == (2 * Utf16Length(s)) % 0x1_0000
    ensures r.0.maximumLength as int == (r.0.length as int + 2) % 0x1_0000
    ensures Utf16Length(s) <= 32766 ==>
      && r.0.length as int == 2 * Utf16Length(s)
      && r.0.maximumLength as int == 2 * Utf16Length(s) + 2
      && r.0.length as int % 2 == 0 && r.0.maximumLength as int % 2 == 0
    ensures r.0.buffer == address
    ensures r.1.blocks == memory.blocks[address := s + [Nul]]
    ensures Valid(r.1)
  {
    var length := ToUInt16(2 * Utf16Length(s));
    (UnicodeString(length, ToUInt16(length as int + 2), address), Alloc(memory, s + [Nul], address))
  }

  /** A character outside the BMP is a surrogate pair: one such character
      gives `Length` 4 and `MaximumLength` 6. */
  lemma SurrogatePairLengths(memory: Memory, address: nat)
    requires Valid(memory) && Unused(memory, address)
    ensures New("\U{1F600}", memory, address).0.length == 4
    ensures New("\U{1F600}", memory, address).0.maximumLength == 6
  {
    assert Utf16Length("\U{1F600}") == 2 by {
      assert "\U{1F600}"[1..] == "";
    }
  }

  /** The buffer is null or a live block: what `Dispose` may free. Copies of
      the struct share the pointer, so once one copy is disposed the others
      no longer satisfy this, and disposing them would free twice. */
  ghost predicate Owned(u: UnicodeString, memory: Memory) {
    u.buffer == 0 || u.buffer in memory.blocks
  }

  /** `Dispose`: frees the buffer and zeroes the pointer; the lengths stay. */
  function Dispose(u: UnicodeString, memory: Memory): (r: (UnicodeString, Memory))
    requires Valid(memory) && Owned(u, memory)
    ensures r.0.buffer == 0 && r.0.(buffer := u.buffer) == u
    ensures u.buffer !in r.1.blocks
    ensures forall a :: a != u.buffer ==> (a in r.1.blocks <==> a in memory.blocks)
    ensures forall a :: a in r.1.blocks ==> r.1.blocks[a] == memory.blocks[a]
    ensures Valid(r.1)
  {
    (u.(buffer := 0), Free(memory, u.buffer))
  }

  /** A second `Dispose` frees only the null pointer: nothing changes. */
  lemma DisposeTwice(u: UnicodeString, memory: Memory)
    requires Valid(memory) && Owned(u, memory)
    ensures var (u1, m1) := Dispose(u, memory);
            Dispose(u1, m1) == (u1, m1)
  {
  }

  /** A copy of the struct taken before `Dispose` still holds the freed
      pointer and may not be disposed again: that would free the block twice. */
  lemma StaleCopyNotOwned(u: UnicodeString, memory: Memory)
    requires Valid(memory) && Owned(u, memory) && u.buffer != 0
    ensures !Owned(u, Dispose(u, memory).1)
  {
  }

  /** The buffer can be read: null, or a live block holding a NUL. */
  ghost predicate Readable(u: UnicodeString, memory: Memory) {
    u.buffer == 0 || (u.buffer in memory.blocks && Nul in memory.blocks[u.buffer])
  }

  /** `ToString` (also the implicit `UNICODE_STRING -> string` conversion):
      the empty string for a null buffer, else the characters up to the
      first NUL. */
  function ToString(u: UnicodeString, memory: Memory): (r: string)
    requires Readable(u, memory)
    ensures u.buffer == 0 ==> r == ""
    ensures u.buffer != 0 ==>
      var block := memory.blocks[u.buffer];
      r <= block && Nul !in r && |r| < |block| && block[|r|] == Nul
  {
    if u.buffer == 0 then "" else TakeUntilNul(memory.blocks[u.buffer])
  }

  /** After `Dispose` the value reads as the empty string. */
  lemma DisposedReadsEmpty(u: UnicodeString, memory: Memory)
    requires Valid(memory) && Owned(u, memory)
    ensures var (u1, m1) := Dispose(u, memory);
            Readable(u1, m1) && ToString(u1, m1) == ""
  {
  }

  /** String to `UNICODE_STRING` and back gives the string up to its first
      NUL; a string without NUL comes back whole. */
  lemma {:induction false} RoundTrip(s: string, memory: Memory, address: nat)
    requires Valid(memory) && Unused(memory, address)
    ensures var (u, m) := New(s, memory, address);
            && Readable(u, m)
            && ToString(u, m) == TakeUntilNul(s)
            && (Nul !in s ==> ToString(u, m) == s)
  {
    var (u, m) := New(s, memory, address);
    assert m.blocks[u.buffer] == s + [Nul];
    assert (s + [Nul])[|s|] == Nul;
    TakeUntilNulTerminated(s);
  }
}
